=== FILE: README.md ===
# CyberFeast ordering core in Dafny

This project models the ordering core of CyberFeast, a Next.js food-ordering
app, as pure Dafny functions over immutable values, and proves properties
about them. The modelled parts are:

- **The cart.** The cart reducer and its `useCart` wrappers, with the cart
  invariant that identifiers are distinct and quantities are at least 1.
- **The shopping-cart panel.** Its total, its quantity buttons, and the
  checkout flow with its `try`/`catch`/`finally` structure.
- **Favourite toggles.** The favourite toggle on meal and restaurant cards,
  and how the client's copy of the favourites relates to the stored document.
- **Server actions.** `placeOrderAction`, `toggleFavoriteAction`,
  `updateUserProfileAction` and `updateAvatarAction`.
- **The order service.** `createOrder`, plus `getOrders`: newest first, at
  most ten.
- **The Stripe webhook.** Its decision chain, from the secret check to the
  order it creates.
- **The restaurant queries.** The read queries of the restaurant service, and
  the dashboard's filter/sort query with its URL-parameter controls.

The document store (Firestore) is one value, `DocumentStore.Store`. It holds:

- the `orders` collection as a sequence, in insertion order;
- the `users` collection as a map from uid to user document;
- a counter that supplies fresh order ids.

Every operation that writes to the store is a function from the old store to
the new one. The outside world comes in as parameters:

- `DocumentStore.Fault` says which write, if any, fails: the add or the
  update.
- `serverTimestamp()` is a `now: int` argument.
- `uuidv4()` is a `uuid: nat -> string` oracle.
- Stripe's `constructEvent` is a `verify` function.
- `JSON.parse` of the items metadata is a `decode` function that may fail.
- `parseFloat` is a `string -> real` argument.
- Success of `admin.auth().updateUser` is a boolean `authOk`.

Modules:

- `Wrappers`: `Option` and `Result`.
- `Seqs`: sequence removal and element sets.
- `Sorting`: a generic insertion sort under a total preorder. Firestore's
  `orderBy` is modelled as "some sorted permutation".
- `Text`: ASCII `toLowerCase`/`toUpperCase`, capitalisation and string order.
- `Cart` and `UseCart`: `src/context/cart-context.tsx`.
- `ShoppingCart`: `src/components/shopping-cart.tsx`.
- `Cards`: `meal-card.tsx` and `restaurant-card.tsx`.
- `DocumentStore`: the store and the Firestore field transforms.
- `OrderService`: `src/services/order-service.ts`.
- `Actions`: `src/app/actions.ts`.
- `Webhook`: `src/app/api/stripe/webhook/route.ts`.
- `RestaurantService`: `src/services/restaurant-service.ts`.
- `Dashboard`: `src/app/dashboard/page.tsx` and `src/components/dashboard-controls.tsx`.

## Model

| member | source | states |
|---|---|---|
| Cart.IndexOf | src/context/cart-context.tsx:36 | the position found is the first entry with that id; none is found exactly when no entry has it |
| Cart.Without | src/context/cart-context.tsx:52-56 | keeps exactly the entries whose id differs, and is the identity when none matches |
| Cart.KeepPositive | src/context/cart-context.tsx:63 | keeps exactly the entries with a positive quantity |
| Cart.Reducer | src/context/cart-context.tsx:33-80 | item actions never change the open flag; TOGGLE_CART flips it and keeps the items |
| Cart.AddExistingMerges | src/context/cart-context.tsx:36-45 | adding an id already present bumps that entry's quantity by one, keeps its stored name/price/image and leaves every other entry as it was |
| Cart.AddNewAppends | src/context/cart-context.tsx:46-50 | adding a new id appends it with quantity 1 from the payload |
| Cart.AddExistingBumpsOne | src/context/cart-context.tsx:36-45 | in a cart with distinct ids, adding an existing id changes exactly the entry at that position |
| Cart.AddPresentAt | src/context/cart-context.tsx:36-45 | in a valid cart, adding the item stored at k again yields the same cart with only that entry's quantity one higher |
| Cart.IndexOfDistinct | src/context/cart-context.tsx:36 | with distinct ids, the lookup of an entry's id finds that entry |
| Cart.RepeatedAdd | src/context/cart-context.tsx:35-51 | adding a new item n times yields one entry with quantity n at the end, and the cart stays valid |
| Cart.IndexOfAppendNew | src/context/cart-context.tsx:36 | an id not yet in the cart is found at the end after it is appended |
| Cart.AddContains | src/context/cart-context.tsx:35-51 | after ADD_ITEM the id is in the cart |
| Cart.RemoveDeletes | src/context/cart-context.tsx:52-56 | REMOVE_ITEM keeps exactly the entries with other ids, the id is gone, and an absent id changes nothing |
| Cart.RemoveKeepsOrder | src/context/cart-context.tsx:52-56 | in a valid cart, removing the entry at k deletes exactly that position and keeps the other entries in their order |
| Cart.WithoutAppend | src/context/cart-context.tsx:55 | filtering distributes over concatenation |
| Cart.WithoutAt | src/context/cart-context.tsx:55 | removing a unique id deletes exactly its position |
| Cart.WithoutSplit | src/context/cart-context.tsx:55 | removing an id carried only by the middle entry leaves the entries on both sides |
| Cart.UpdateNeverNonPositive | src/context/cart-context.tsx:57-65 | after UPDATE_QUANTITY no entry has a quantity of 0 or less |
| Cart.UpdatePositiveSets | src/context/cart-context.tsx:60-63 | a positive quantity replaces the matching entry's quantity and nothing else |
| Cart.UpdateAt | src/context/cart-context.tsx:60-63 | a positive update of the entry at k is the point update at k |
| Cart.UpdateNonPositiveRemoves | src/context/cart-context.tsx:60-63 | in a valid cart an update to 0 or less is the same as REMOVE_ITEM |
| Cart.SetThenKeepIsWithout | src/context/cart-context.tsx:60-63 | setting a non-positive quantity and then filtering equals removing the id |
| Cart.ToggleFlips | src/context/cart-context.tsx:66-70 | TOGGLE_CART flips only the flag, and toggling twice restores the state |
| Cart.ClearEmpties | src/context/cart-context.tsx:71-76 | CLEAR_CART yields the initial state: no items, closed |
| Cart.WithoutKeepsDistinct | src/context/cart-context.tsx:55 | removal keeps ids distinct |
| Cart.KeepPositiveKeepsDistinct | src/context/cart-context.tsx:63 | dropping non-positive entries keeps ids distinct |
| Cart.AddPreservesValid | src/context/cart-context.tsx:35-51 | ADD_ITEM keeps the cart invariant whenever the cart held it before |
| Cart.RemovePreservesValid | src/context/cart-context.tsx:52-56 | REMOVE_ITEM keeps the cart invariant |
| Cart.UpdatePreservesValid | src/context/cart-context.tsx:57-65 | UPDATE_QUANTITY keeps the cart invariant |
| Cart.ReducerPreservesValid | src/context/cart-context.tsx:33-80 | every action keeps the cart invariant |
| Cart.RunPreservesValid | src/context/cart-context.tsx:33-80 | any sequence of actions keeps the cart invariant |
| Cart.ReachableValid | src/context/cart-context.tsx:88-91 | every state reachable from the initial state is valid |
| UseCart.AddItemToCart | src/context/cart-context.tsx:110-116 | `addItem` keeps validity and the open flag, the id is then present, and the length grows by one exactly when the id was new |
| UseCart.ClearCartNow | src/context/cart-context.tsx:118-120 | `clearCart` leaves an empty, closed cart |
| UseCart.ToggleCartNow | src/context/cart-context.tsx:127 | `toggleCart` flips the flag and keeps the items |
| ShoppingCart.TotalPrice | src/components/shopping-cart.tsx:23 | the total of an empty cart is 0, and it is never negative when no price or quantity is |
| ShoppingCart.TotalAppend | src/components/shopping-cart.tsx:23 | the total of a concatenation is the sum of the totals |
| ShoppingCart.TotalReplace | src/components/shopping-cart.tsx:23 | replacing one line changes the total by the difference of the line totals |
| ShoppingCart.TotalAfterAdd | src/components/shopping-cart.tsx:23 | adding an item raises the total by one unit price: the stored entry's if present, else the payload's |
| ShoppingCart.TotalAfterAddExisting | src/components/shopping-cart.tsx:23 | adding an item already present raises the total by that entry's price |
| ShoppingCart.TotalAfterAddNew | src/components/shopping-cart.tsx:23 | adding a new item raises the total by the payload's price |
| ShoppingCart.TotalBumpAt | src/components/shopping-cart.tsx:23 | one more unit of entry k raises the total by its price |
| ShoppingCart.TotalAfterRemove | src/components/shopping-cart.tsx:23 | removing an entry lowers the total by exactly its line total |
| ShoppingCart.HandleUpdateQuantity | src/components/shopping-cart.tsx:25-27 | the resulting cart has only positive quantities and the same open flag |
| ShoppingCart.HandleRemoveItem | src/components/shopping-cart.tsx:29-31 | keeps exactly the entries with other ids and the open flag |
| ShoppingCart.MinusAtOneRemoves | src/components/shopping-cart.tsx:96 | the minus button on a quantity of 1 removes the entry, as REMOVE_ITEM would |
| ShoppingCart.MinusDecrements | src/components/shopping-cart.tsx:96 | the minus button above 1 decrements exactly that entry |
| ShoppingCart.PlusButton | src/components/shopping-cart.tsx:100 | the plus button increments exactly that entry, the same as ADD_ITEM of that item |
| ShoppingCart.PlusUpdates | src/components/shopping-cart.tsx:100 | the plus button's update yields the cart with only that entry's quantity one higher |
| ShoppingCart.HandleCheckout | src/components/shopping-cart.tsx:33-71 | no user: toggle and go to /login, no order; empty cart: nothing happens; otherwise one `placeOrderAction` call with the items and their total. Success iff both writes succeed. Success clears first and goes to /dashboard/orders; failure keeps the items. The cart is toggled iff it was open. The store afterwards is the one that call leaves, and is unchanged when no call is made |
| ShoppingCart.SuccessfulCheckoutReopens | src/components/shopping-cart.tsx:53-69 | checking out from an open cart dispatches CLEAR_CART then TOGGLE_CART, so the cart ends empty but open again, with the pending order stored |
| ShoppingCart.FailedCheckoutKeepsItems | src/components/shopping-cart.tsx:59-69 | a failed order keeps the items and closes the cart |
| ShoppingCart.RetryAfterUpdateFailureDuplicates | src/components/shopping-cart.tsx:41-69 | if the points increment is rejected, checkout reports failure and keeps the items, yet the pending order is already stored. A second checkout stores a second order for the same items |
| Cards.ItemType | src/components/meal-card.tsx:60 | meal cards send `meal`, restaurant cards send `restaurant` |
| Cards.Favorites | src/components/restaurant-card.tsx:32 | a card reads the favourites list of its own kind |
| Cards.IsFavorited | src/components/meal-card.tsx:32 | the heart is filled iff user data is loaded and the id is in that list |
| Cards.ClientToggle | src/components/meal-card.tsx:64-66 | an un-favourite drops every copy of the id; a favourite appends it |
| Cards.AddThenRemove | src/components/meal-card.tsx:64-66 | favouriting then un-favouriting removes the id and keeps the other entries in order; if the id was absent, the list is restored |
| Cards.HandleToggleFavorite | src/components/meal-card.tsx:49-75 | no user: redirect to /login and nothing else; otherwise one server call with the current flag and no redirect. The client copy changes only its own list, and is updated whatever the server answered. When the call throws on an empty uid or item id, the client copy is left as it was. The store afterwards is the one the server call leaves, and is unchanged when no call is made |
| Cards.ToggleKeepsAgreement | src/components/restaurant-card.tsx:34-63 | if client and store agree as sets and the write succeeds, they still agree and the id's membership flipped |
| Cards.RejectedWriteDiverges | src/components/meal-card.tsx:57-68 | when the store update fails, the client's list no longer matches the store |
| Cards.FlagMatchesServer | src/components/meal-card.tsx:32 | under agreement, the flag sent to the server is the store's membership |
| Cards.AddToCartPayload | src/components/meal-card.tsx:36-43 | the cart payload carries the card's fields and the parsed price |
| Cards.AddToCartAdds | src/components/meal-card.tsx:36-43 | "Add to Cart" on a new meal appends it with quantity 1 at the parsed price |
| DocumentStore.AddOrder | src/services/order-service.ts:61 | `add` appends one order with a fresh id and leaves the users untouched |
| DocumentStore.PutUser | src/app/actions.ts:44-46 | an update replaces only that user's document |
| DocumentStore.ArrayUnion | src/app/actions.ts:74 | the element set gains exactly the id, with no duplicate added |
| DocumentStore.ArrayRemove | src/app/actions.ts:70 | the element set loses exactly the id |
| DocumentStore.ArrayUnionIdempotent | src/app/actions.ts:74 | a second union changes nothing |
| DocumentStore.ArrayRemoveIdempotent | src/app/actions.ts:70 | a second removal changes nothing |
| DocumentStore.PointsFor | src/services/order-service.ts:65 | the loyalty points are the floor of the total |
| OrderService.Materialize | src/services/order-service.ts:50-71 | a failed add writes nothing. Otherwise the order is stored even if the increment then fails. Success iff no fault and the user document exists |
| OrderService.MaterializeCredits | src/services/order-service.ts:64-68 | on success only the user's loyalty points change, by the floor of the total |
| OrderService.CreateOrder | src/services/order-service.ts:50-71 | on success one `paid` order is appended with a fresh id and the user is credited. Success iff both writes succeed. A failed add writes nothing |
| OrderService.Project | src/services/order-service.ts:30-41 | the serialisable order keeps every field of the stored order |
| OrderService.OfUser | src/services/order-service.ts:20 | exactly the orders of that user |
| OrderService.OfUserAppend | src/services/order-service.ts:20 | the query distributes over concatenation, and one order is kept iff it is the user's: each matching order once, in collection order |
| OrderService.OfUserWithin | src/services/order-service.ts:20 | the query yields no order more often than the collection holds it |
| OrderService.NewerOrSameIsPreorder | src/services/order-service.ts:21 | descending `createdAt` is a total preorder |
| OrderService.Newest | src/services/order-service.ts:19-22 | min(10, n) of the user's orders, newest first, as a sub-multiset of them, and none left out is newer than one kept |
| OrderService.GetOrders | src/services/order-service.ts:18-42 | one serialised order per selected order, in the same order |
| OrderService.GetOrdersSpec | src/services/order-service.ts:18-42 | at most 10 results, all the user's, in descending `createdAt`, each a stored order; every omitted order of the user is no newer than any result; when ids are fresh, no two results share an id |
| OrderService.GetOrdersDistinct | src/services/order-service.ts:18-42 | when the stored ids are fresh, no order is listed twice |
| OrderService.GetOrdersEmpty | src/services/order-service.ts:26-28 | a user with no orders gets `[]` |
| Actions.PlaceOrder | src/app/actions.ts:29-49 | as `createOrder` but with status `pending`: one order appended, the user credited, the id fresh |
| Actions.WithFavorites | src/app/actions.ts:65 | the update touches only the list named by the item type (`restaurant` or, otherwise, meals) |
| Actions.ToggleFavorite | src/app/actions.ts:58-82 | a missing argument throws and writes nothing. Otherwise it returns true iff the update goes through, which a fault or a missing user document prevents. A failed update writes nothing. Success writes `arrayRemove` or `arrayUnion` of the id to the one chosen list and nothing else; a union adds the id only if absent |
| Actions.Blanks | src/app/actions.ts:100 | counts the addresses without an id |
| Actions.ProcessAddresses | src/app/actions.ts:98-101 | names and details are kept, existing ids are kept, and each blank id draws the next uuid in order |
| Actions.ProcessAddressesFresh | src/app/actions.ts:98-101 | with an injective uuid source of non-empty strings, every address ends with a non-empty id, the new ids are pairwise distinct, and each comes from the range drawn |
| Actions.FreshIdsDistinct | src/app/actions.ts:100 | with an injective uuid source, two blank addresses receive different ids |
| Actions.FreshIdsInRange | src/app/actions.ts:100 | every processed id is non-empty, and each new id is one of the uuids drawn |
| Actions.ProcessAddressesDistinct | src/app/actions.ts:98-101 | when the uuids are injective and avoid the supplied ids, and the supplied ids are distinct, every processed address has its own id |
| Actions.NewIdsAvoidKept | src/app/actions.ts:100 | a drawn id differs from every kept one when the uuids avoid the supplied ids |
| Actions.UpdateUserProfile | src/app/actions.ts:90-113 | returns success iff the auth update and the store update both succeed; on success it sets exactly the name and the processed addresses, on failure it writes nothing |
| Actions.UpdateAvatar | src/app/actions.ts:120-130 | returns success iff both updates succeed; on success it sets exactly `photoURL`, on failure it writes nothing |
| Actions.UpdateAvatarIdempotent | src/app/actions.ts:120-130 | repeating a successful update with the same URL succeeds and leaves the store as the first update left it, with every other field as before |
| Webhook.TotalOf | src/app/api/stripe/webhook/route.ts:39 | the amount in minor units divided by 100, 0 when absent |
| Webhook.Post | src/app/api/stripe/webhook/route.ts:8-48 | 500 without a secret; 400 with the verifier's message on a bad signature; 200 with nothing written for other events; 400 for missing metadata; otherwise `createOrder` is called iff the items parse, with the decoded items and the total. It is answered 200 iff the create succeeds, else 500. An unparseable `items` is answered 500 with nothing written. There is no store change and no call off this path |
| Webhook.CompletedEventCreatesOrder | src/app/api/stripe/webhook/route.ts:27-47 | a completed session with its metadata and parseable items gets exactly one `createOrder` for that user, those items and the total. The response is 200 if it succeeds, else 500 |
| Webhook.OtherEventsIgnored | src/app/api/stripe/webhook/route.ts:27-47 | a verified event of another type is acknowledged 200 and writes nothing |
| Webhook.MissingMetadataRejected | src/app/api/stripe/webhook/route.ts:30-33 | a completed session lacking `userId` or `items` is answered 400 and writes nothing |
| Webhook.DuplicateDeliveryCreditsTwice | src/app/api/stripe/webhook/route.ts:35-40 | redelivering a handled event creates a second order and credits the points twice: the route is not idempotent |
| RestaurantService.GetRestaurants | src/services/restaurant-service.ts:24-33 | every restaurant in collection order, with `ownerId` removed |
| RestaurantService.GetRestaurantsByOwner | src/services/restaurant-service.ts:35-42 | exactly the restaurants whose `ownerId` equals the argument |
| RestaurantService.ByOwnerAppend | src/services/restaurant-service.ts:35-42 | the query distributes over concatenation, and one document gives a record iff its owner matches: one record per owned document, in collection order |
| RestaurantService.FirstNamed | src/services/restaurant-service.ts:46 | finds the first restaurant with that name, or none iff no restaurant has it |
| RestaurantService.GetMenuForRestaurant | src/services/restaurant-service.ts:45-61 | an error naming the restaurant iff no restaurant has that name; otherwise the meals of the first one that does |
| RestaurantService.Locate | src/services/restaurant-service.ts:64 | finds a document with that id, or none iff there is none |
| RestaurantService.GetRestaurantById | src/services/restaurant-service.ts:63-70 | `null` iff no document has the id; otherwise that document's record |
| RestaurantService.GetMenuForRestaurantById | src/services/restaurant-service.ts:73-79 | the meals under that id: the first document's with the id if there is one, otherwise the `meals` left behind by a deleted document with that id, otherwise `[]` |
| RestaurantService.LocateIsFirst | src/services/restaurant-service.ts:64 | the document found is the first with that id |
| Dashboard.CategoryFilter | src/app/dashboard/page.tsx:23-26 | no filter iff the category is absent, empty or `all` in any case; otherwise the category with its first character upper-cased and the rest unchanged |
| Dashboard.SortOrderOf | src/app/dashboard/page.tsx:29-38 | `name-asc` and `name-desc` pick name order; every other value or none picks rating order |
| Dashboard.PrecedesIsPreorder | src/app/dashboard/page.tsx:29-38 | each ordering is a total preorder, so the sort is well defined |
| Dashboard.Matching | src/app/dashboard/page.tsx:25 | exactly the restaurants of the given cuisine, or all of them |
| Dashboard.MatchingAppend | src/app/dashboard/page.tsx:25 | the filter distributes over concatenation, and one document gives a record iff it passes: one record per matching document, in collection order |
| Dashboard.GetDashboardData | src/app/dashboard/page.tsx:19-55 | the restaurant list is a sorted permutation of the matching restaurants. The featured meals are the first min(3, n) meals of the first restaurant, and `[]` when there is none |
| Dashboard.DashboardListsMatching | src/app/dashboard/page.tsx:23-41 | a record is listed iff it comes from a restaurant passing the filter |
| Dashboard.DashboardOrder | src/app/dashboard/page.tsx:29-38 | `name-asc` lists names ascending, `name-desc` descending, anything else rating descending |
| Dashboard.FeaturedIgnoresControls | src/app/dashboard/page.tsx:44-52 | the featured meals do not depend on category or sort |
| Dashboard.CurrentCategory | src/components/dashboard-controls.tsx:23 | `all` when the parameter is absent or empty, else the parameter lower-cased |
| Dashboard.CurrentSortBy | src/components/dashboard-controls.tsx:24 | `rating` when the parameter is absent or empty, else the parameter |
| Dashboard.HandleFilterChange | src/components/dashboard-controls.tsx:26-34 | `all` deletes `category`; any other value sets it; every other parameter is unchanged |
| Dashboard.HandleSortChange | src/components/dashboard-controls.tsx:36-40 | sets `sortBy`; every other parameter is unchanged |
| Dashboard.CategoryNamesAreCapitalized | src/components/dashboard-controls.tsx:10-16 | each button except `All` is labelled with its value capitalised, and only the first entry is `all` |
| Dashboard.ClickCategory | src/components/dashboard-controls.tsx:48-50 | clicking a button highlights it, makes the page filter on the cuisine named on it (none for `All`) and keeps the sort |
| Dashboard.ClickCuisine | src/components/dashboard-controls.tsx:26-34 | after a cuisine button's click the highlighted category is its value and the page filters on the button's label |
| Dashboard.ValuesAreLower | src/components/dashboard-controls.tsx:10-16 | every button value is already lower case, so lower-casing it gives it back |
| Dashboard.ClickCuisineLists | src/components/dashboard-controls.tsx:50 | after clicking a cuisine button the page lists exactly that cuisine's restaurants |
| Dashboard.ChooseSort | src/components/dashboard-controls.tsx:36-40 | choosing a sort makes it current and the page uses it; the category is kept |
| Dashboard.UpperCaseCategoryMismatch | src/components/dashboard-controls.tsx:23 | `category=JAPANESE` highlights the Japanese button, while the page filters on `JAPANESE`, which is not the cuisine `Japanese` |

## Left out

- Firestore, Firebase Auth and Stripe as running services. Reads and writes are total functions on a store value. Network errors and latency become the `Fault` argument or are left out.
- Concurrency. Two clients writing the same user document, and React's `startTransition`, run as if sequential.
- Order-id generation. Firestore's random document ids are a counter, so "fresh" means "not used before".
- `serverTimestamp()`. It is a caller-supplied integer. Nothing in the model forces two orders to carry different times.
- Floating-point arithmetic. Prices and totals are exact reals: `reduce`'s rounding, `Math.floor` of a float and `toFixed` in the views are not modelled. JavaScript numbers used as quantities are unbounded integers.
- Case mapping beyond ASCII. `toLowerCase` and `toUpperCase` map only `A`-`Z`/`a`-`z`, so a first letter that upper-cases to two characters (such as `ß`) is not modelled.
- Firestore's document-id tie-breaking for equal sort keys. Where `orderBy` leaves ties, the model only promises some sorted permutation.
- Dashboard.GetDashboardData: does not model Firestore leaving out documents that lack the sort field. Every modelled document has `rating` and `name`.
- RestaurantService.GetRestaurantById: the throw Firestore raises for an empty id is not modelled. An empty id simply finds no document.
- RestaurantService.GetMenuForRestaurantById: the throw Firestore raises for the invalid path `restaurants//meals` that an empty id produces is not modelled. The model reads the empty id like any other id, so it normally gets `[]`.
- Restaurant and meal documents are assumed to carry no data field called `id`. `{ id, ...data }` and `{ ...data, id }` then agree. Extra `[key: string]: any` fields are not modelled.
- A user document missing a favourites array is modelled as an empty list. `arrayUnion` on a missing field creates it, which gives the same state.
- Actions.UpdateUserProfile: the Firebase Auth profile change is an external effect, represented only by `authOk`. When auth succeeds but the store update fails, the model does not record that the auth profile has changed.
- Actions.UpdateAvatar: the same applies to the auth `photoURL`.
- URL parameters are a map with one value per key. The ordering and repeated keys of `URLSearchParams`, and the `router.replace` navigation, are not modelled.
- OrderService.GetOrders: `createdAt` is returned as the stored integer. The conversion to an ISO string is not modelled.
- Toasts, loading flags, routing history, drag and drop, and all rendering.
- The admin forms, the profile, favourites, orders and restaurant pages, the seed script, the LLM flows, the concierge and search components, and `src/lib/stripe.ts`. These are outside this model.
- Stripe signature verification is the `verify` argument. Its cryptography is not modelled.

=== FILE: actions.dfy ===
/**
 * The server actions of `actions.ts` that touch the store: placing an order,
 * toggling a favourite, updating the profile (with address-id assignment) and
 * the avatar. The LLM-backed actions are not part of this model.
 */
module Actions {
  import opened Wrappers
  import opened Seqs
  import opened Cart
  import opened DocumentStore
  import opened OrderService

  /** `placeOrderAction`: the same two writes as `createOrder`, with status `pending`. */
  function PlaceOrder(db: Store, input: OrderInput, now: int, fault: Fault): (w: Written)
    ensures w.result.Ok? ==>
      && w.db.orders == db.orders + [Order(w.result.value, input.userId, input.items, input.total, Pending, now)]
      && CreditedOnly(db, w.db, input.userId, input.total)
      && w.db.nextId == db.nextId + 1
    ensures w.result.Ok? <==> fault == NoFault && CanUpdate(db, input.userId)
    ensures fault == AddFails ==> w.db == db
    ensures fault == UpdateFails ==> |w.db.orders| == |db.orders| + 1 && w.db.users == db.users
    ensures FreshIds(db) && w.result.Ok? ==> forall i :: 0 <= i < |db.orders| ==> db.orders[i].id != w.result.value
  {
    MaterializeCredits(db, input, Pending, now, fault);
    Materialize(db, input, Pending, now, fault)
  }

  /** How a server action ended: it threw, or it returned `{success}`. */
  datatype ActionOutcome = Threw(message: string) | Returned(success: bool)

  datatype ActionResult = ActionResult(db: Store, outcome: ActionOutcome)

  datatype ToggleFavoriteInput = ToggleFavoriteInput(userId: string, itemId: string, itemType: string, isFavorited: bool)

  /** The field `toggleFavoriteAction` writes for an item type. */
  function FavoritesOf(u: UserDoc, itemType: string): seq<string> {
    if itemType == "restaurant" then u.favoriteRestaurants else u.favoriteMeals
  }

  function WithFavorites(u: UserDoc, itemType: string, favs: seq<string>): (r: UserDoc)
    ensures FavoritesOf(r, itemType) == favs
    ensures itemType == "restaurant" ==> r.favoriteMeals == u.favoriteMeals
    ensures itemType != "restaurant" ==> r.favoriteRestaurants == u.favoriteRestaurants
    ensures r.(favoriteRestaurants := u.favoriteRestaurants, favoriteMeals := u.favoriteMeals) == u
  {
    if itemType == "restaurant" then u.(favoriteRestaurants := favs) else u.(favoriteMeals := favs)
  }

  /** The sign-in page clients send a visitor without a session to. */
  const LoginPath := "/login"

  const MissingToggleArguments := "User ID, Item ID, and Item Type are required."

  /** `toggleFavoriteAction`: `arrayRemove` when favourited, `arrayUnion` otherwise, on one field. */
  function ToggleFavorite(db: Store, input: ToggleFavoriteInput, fault: Fault): (r: ActionResult)
    ensures input.userId == "" || input.itemId == "" || input.itemType == "" ==>
      r == ActionResult(db, Threw(MissingToggleArguments))
    ensures r.outcome == Returned(false) ==> r.db == db
    ensures r.outcome == Returned(true) ==>
      && fault != UpdateFails
      && input.userId in db.users && input.userId in r.db.users
      && PutUser(db, input.userId, r.db.users[input.userId]) == r.db
      && var before := db.users[input.userId];
         var after := r.db.users[input.userId];
         && after == WithFavorites(before, input.itemType, FavoritesOf(after, input.itemType))
         && (input.isFavorited ==> Elements(FavoritesOf(after, input.itemType)) == Elements(FavoritesOf(before, input.itemType)) - {input.itemId})
         && (!input.isFavorited ==> Elements(FavoritesOf(after, input.itemType)) == Elements(FavoritesOf(before, input.itemType)) + {input.itemId})
         && (input.isFavorited ==> FavoritesOf(after, input.itemType) == ArrayRemove(FavoritesOf(before, input.itemType), input.itemId))
         && (!input.isFavorited ==> FavoritesOf(after, input.itemType) == ArrayUnion(FavoritesOf(before, input.itemType), input.itemId))
    ensures r.outcome.Returned? <==> input.userId != "" && input.itemId != "" && input.itemType != ""
    // the update is rejected only by a fault or a missing user document
    ensures r.outcome == Returned(true) <==>
      input.itemId != "" && input.itemType != "" && fault != UpdateFails && CanUpdate(db, input.userId)
  {
    if input.userId == "" || input.itemId == "" || input.itemType == "" then
      ActionResult(db, Threw(MissingToggleArguments))
    else if fault == UpdateFails || !CanUpdate(db, input.userId) then
      ActionResult(db, Returned(false))
    else
      var u := db.users[input.userId];
      var field := FavoritesOf(u, input.itemType);
      var updated := if input.isFavorited then ArrayRemove(field, input.itemId) else ArrayUnion(field, input.itemId);
      ActionResult(PutUser(db, input.userId, WithFavorites(u, input.itemType, updated)), Returned(true))
  }

  // ---------------------------------------------------------------- updateUserProfileAction

  /** Number of addresses without an id: how many fresh ids processing them draws. */
  function Blanks(addrs: seq<Address>): (n: nat)
    ensures n <= |addrs|
    decreases |addrs|
  {
    if addrs == [] then 0 else (if addrs[0].id == "" then 1 else 0) + Blanks(addrs[1..])
  }

  /**
   * `r` is `addrs` with names and details kept, present ids kept, and the
   * `n`-th blank id (counting from 0) replaced by `uuid(next + n)`.
   */
  predicate Processed(addrs: seq<Address>, r: seq<Address>, uuid: nat -> string, next: nat) {
    && |r| == |addrs|
    && (forall i :: 0 <= i < |addrs| ==> r[i].name == addrs[i].name && r[i].details == addrs[i].details)
    && (forall i :: 0 <= i < |addrs| && addrs[i].id != "" ==> r[i].id == addrs[i].id)
    && (forall i :: 0 <= i < |addrs| && addrs[i].id == "" ==> r[i].id == uuid(next + Blanks(addrs[..i])))
  }

  /**
   * `addresses.map(addr => ({...addr, id: addr.id || uuidv4()}))`. The `k`-th
   * call of the id generator yields `uuid(k)`; calls are numbered from `next`.
   */
  function ProcessAddresses(addrs: seq<Address>, uuid: nat -> string, next: nat): (r: seq<Address>)
    ensures Processed(addrs, r, uuid, next)
    decreases |addrs|
  {
    if addrs == [] then []
    else
      var head := if addrs[0].id != "" then addrs[0] else addrs[0].(id := uuid(next));
      var rest := ProcessAddresses(addrs[1..], uuid, next + (if addrs[0].id == "" then 1 else 0));
      ProcessStep(addrs, uuid, next, head, rest);
      [head] + rest
  }

  /** One step of `ProcessAddresses`: the head followed by a processed tail is processed. */
  lemma ProcessStep(addrs: seq<Address>, uuid: nat -> string, next: nat, head: Address, rest: seq<Address>)
    requires addrs != []
    requires head == if addrs[0].id != "" then addrs[0] else addrs[0].(id := uuid(next))
    requires Processed(addrs[1..], rest, uuid, next + (if addrs[0].id == "" then 1 else 0))
    ensures Processed(addrs, [head] + rest, uuid, next)
  {
    var r := [head] + rest;
    forall i | 0 <= i < |addrs|
      ensures r[i].name == addrs[i].name && r[i].details == addrs[i].details
      ensures addrs[i].id != "" ==> r[i].id == addrs[i].id
      ensures addrs[i].id == "" ==> r[i].id == uuid(next + Blanks(addrs[..i]))
    {
      if i > 0 {
        assert addrs[..i][1..] == addrs[1..][..i - 1];
        assert addrs[1..][i - 1] == addrs[i];
        assert r[i] == rest[i - 1];
      }
    }
  }

  lemma {:induction false} BlanksMonotone(addrs: seq<Address>, i: nat, j: nat)
    requires i < j <= |addrs|
    requires addrs[i].id == ""
    ensures Blanks(addrs[..i]) < Blanks(addrs[..j])
    decreases j - i
  {
    if j == i + 1 {
      BlanksSnoc(addrs[..j]);
      assert addrs[..j][..i] == addrs[..i];
    } else {
      BlanksMonotone(addrs, i, j - 1);
      BlanksSnoc(addrs[..j]);
      assert addrs[..j][..j - 1] == addrs[..j - 1];
    }
  }

  lemma {:induction false} BlanksSnoc(addrs: seq<Address>)
    requires addrs != []
    ensures Blanks(addrs) == Blanks(addrs[..|addrs| - 1]) + (if addrs[|addrs| - 1].id == "" then 1 else 0)
    decreases |addrs|
  {
    if |addrs| > 1 {
      BlanksSnoc(addrs[1..]);
      assert addrs[1..][..|addrs[1..]| - 1] == addrs[..|addrs| - 1][1..];
    }
  }

  /**
   * Address processing keeps count, order and every existing id, and gives the
   * id-less addresses pairwise distinct ids, none empty, drawn from the
   * generator (so distinct from the kept ids when the generator avoids them).
   */
  lemma ProcessAddressesFresh(addrs: seq<Address>, uuid: nat -> string, next: nat)
    requires forall m, n :: m != n ==> uuid(m) != uuid(n)
    requires forall n :: uuid(n) != ""
    ensures var r := ProcessAddresses(addrs, uuid, next);
      && (forall i :: 0 <= i < |r| ==> r[i].id != "")
      && (forall i, j :: 0 <= i < j < |r| && addrs[i].id == "" && addrs[j].id == "" ==> r[i].id != r[j].id)
      && (forall i :: 0 <= i < |r| && addrs[i].id == "" ==> exists n :: next <= n < next + Blanks(addrs) && r[i].id == uuid(n))
  {
    var r := ProcessAddresses(addrs, uuid, next);
    FreshIdsDistinct(addrs, r, uuid, next);
    FreshIdsInRange(addrs, r, uuid, next);
  }

  lemma FreshIdsDistinct(addrs: seq<Address>, r: seq<Address>, uuid: nat -> string, next: nat)
    requires forall m, n :: m != n ==> uuid(m) != uuid(n)
    requires Processed(addrs, r, uuid, next)
    ensures forall i, j :: 0 <= i < j < |r| && addrs[i].id == "" && addrs[j].id == "" ==> r[i].id != r[j].id
  {
    forall i, j | 0 <= i < j < |r| && addrs[i].id == "" && addrs[j].id == ""
      ensures r[i].id != r[j].id
    {
      BlanksMonotone(addrs, i, j);
    }
  }

  lemma FreshIdsInRange(addrs: seq<Address>, r: seq<Address>, uuid: nat -> string, next: nat)
    requires forall n :: uuid(n) != ""
    requires Processed(addrs, r, uuid, next)
    ensures forall i :: 0 <= i < |r| ==> r[i].id != ""
    ensures forall i :: 0 <= i < |r| && addrs[i].id == "" ==> exists n :: next <= n < next + Blanks(addrs) && r[i].id == uuid(n)
  {
    forall i | 0 <= i < |r| && addrs[i].id == ""
      ensures exists n :: next <= n < next + Blanks(addrs) && r[i].id == uuid(n)
    {
      BlanksMonotone(addrs, i, |addrs|);
      assert addrs[..|addrs|] == addrs;
      assert next <= next + Blanks(addrs[..i]) < next + Blanks(addrs);
    }
  }

  /**
   * When no uuid collides with an id the caller already supplied, and the
   * supplied ids are pairwise distinct, every processed address has its own id.
   */
  lemma ProcessAddressesDistinct(addrs: seq<Address>, uuid: nat -> string, next: nat)
    requires forall m, n :: m != n ==> uuid(m) != uuid(n)
    requires forall n, i :: 0 <= i < |addrs| && addrs[i].id != "" ==> uuid(n) != addrs[i].id
    requires forall i, j :: 0 <= i < j < |addrs| && addrs[i].id != "" && addrs[j].id != "" ==> addrs[i].id != addrs[j].id
    ensures var r := ProcessAddresses(addrs, uuid, next);
      forall i, j :: 0 <= i < j < |r| ==> r[i].id != r[j].id
  {
    var r := ProcessAddresses(addrs, uuid, next);
    FreshIdsDistinct(addrs, r, uuid, next);
    NewIdsAvoidKept(addrs, r, uuid, next);
  }

  /** A drawn id differs from every kept one when the uuid source avoids the supplied ids. */
  lemma NewIdsAvoidKept(addrs: seq<Address>, r: seq<Address>, uuid: nat -> string, next: nat)
    requires forall n, i :: 0 <= i < |addrs| && addrs[i].id != "" ==> uuid(n) != addrs[i].id
    requires Processed(addrs, r, uuid, next)
    ensures forall i, j :: 0 <= i < |r| && 0 <= j < |r| && addrs[i].id == "" && addrs[j].id != "" ==> r[i].id != r[j].id
  {
    forall i, j | 0 <= i < |r| && 0 <= j < |r| && addrs[i].id == "" && addrs[j].id != ""
      ensures r[i].id != r[j].id
    {
      assert r[i].id == uuid(next + Blanks(addrs[..i]));
    }
  }

  datatype ProfileInput = ProfileInput(userId: string, displayName: string, addresses: seq<Address>)

  /**
   * `updateUserProfileAction`. `authOk` says whether the authentication
   * service accepted the new display name; only then is the user document
   * written, with the display name and the processed addresses.
   */
  function UpdateUserProfile(db: Store, input: ProfileInput, authOk: bool, uuid: nat -> string, fault: Fault): (r: ActionResult)
    ensures r.outcome.Returned?
    ensures r.outcome.success <==> authOk && fault != UpdateFails && CanUpdate(db, input.userId)
    ensures !r.outcome.success ==> r.db == db
    ensures r.outcome.success ==>
      var u := db.users[input.userId];
      r.db == PutUser(db, input.userId,
        u.(displayName := input.displayName, addresses := ProcessAddresses(input.addresses, uuid, 0)))
  {
    if !authOk || fault == UpdateFails || !CanUpdate(db, input.userId) then ActionResult(db, Returned(false))
    else
      var u := db.users[input.userId];
      var processed := ProcessAddresses(input.addresses, uuid, 0);
      ActionResult(PutUser(db, input.userId, u.(displayName := input.displayName, addresses := processed)), Returned(true))
  }

  /** `updateAvatarAction`: the auth profile first, then the user document's `photoURL`. */
  function UpdateAvatar(db: Store, userId: string, photoURL: string, authOk: bool, fault: Fault): (r: ActionResult)
    ensures r.outcome.Returned?
    ensures r.outcome.success <==> authOk && fault != UpdateFails && CanUpdate(db, userId)
    ensures !r.outcome.success ==> r.db == db
    ensures r.outcome.success ==> r.db == PutUser(db, userId, db.users[userId].(photoURL := Some(photoURL)))
  {
    if !authOk || fault == UpdateFails || !CanUpdate(db, userId) then ActionResult(db, Returned(false))
    else ActionResult(PutUser(db, userId, db.users[userId].(photoURL := Some(photoURL))), Returned(true))
  }

  /**
   * Repeating a successful avatar update with the same URL writes nothing new,
   * and the user's other fields are those from before the first update.
   */
  lemma UpdateAvatarIdempotent(db: Store, userId: string, photoURL: string)
    requires CanUpdate(db, userId)
    ensures var once := UpdateAvatar(db, userId, photoURL, true, NoFault);
      var twice := UpdateAvatar(once.db, userId, photoURL, true, NoFault);
      && once.outcome == Returned(true) && twice.outcome == Returned(true)
      && twice.db == once.db
      && once.db.users[userId].(photoURL := db.users[userId].photoURL) == db.users[userId]
  {
    var once := UpdateAvatar(db, userId, photoURL, true, NoFault);
    var u := db.users[userId].(photoURL := Some(photoURL));
    assert once.db.users[userId] == u;
    assert u.(photoURL := Some(photoURL)) == u;
    assert once.db.users[userId := u] == once.db.users;
  }
}

=== FILE: cards.dfy ===
/**
 * `meal-card.tsx` and `restaurant-card.tsx`: the favourite heart with its
 * optimistic client update, and the meal card's add-to-cart payload. Both
 * cards behave alike, differing only in which favourites field they touch.
 */
module Cards {
  import opened Wrappers
  import opened Seqs
  import opened Cart
  import opened DocumentStore
  import opened Actions

  datatype CardKind = MealCard | RestaurantCard

  /** The `itemType` the card sends to `toggleFavoriteAction`. */
  function ItemType(kind: CardKind): (t: string)
    ensures t == "restaurant" <==> kind == RestaurantCard
    ensures t != ""
  {
    match kind
    case MealCard => "meal"
    case RestaurantCard => "restaurant"
  }

  /** The favourites list a card reads and writes: the same field the server action picks for its item type. */
  function Favorites(u: UserDoc, kind: CardKind): (r: seq<string>)
    ensures r == FavoritesOf(u, ItemType(kind))
  {
    match kind
    case MealCard => u.favoriteMeals
    case RestaurantCard => u.favoriteRestaurants
  }

  /** `userData?.favoriteMeals?.includes(id)` (or `favoriteRestaurants`), `false` without user data. */
  function IsFavorited(userData: Option<UserDoc>, kind: CardKind, id: string): (b: bool)
    ensures b <==> userData.Some? && id in Favorites(userData.value, kind)
  {
    match userData
    case None => false
    case Some(u) => id in Favorites(u, kind)
  }

  /** The client's new list: filtered when favourited, the id appended otherwise. */
  function ClientToggle(favs: seq<string>, id: string, wasFavorited: bool): (r: seq<string>)
    ensures wasFavorited ==> id !in r && forall x :: x in r <==> x in favs && x != id
    ensures !wasFavorited ==> r == favs + [id]
  {
    if wasFavorited then RemoveAll(favs, id) else favs + [id]
  }

  /** Favouriting and then unfavouriting an id removes it and leaves every other entry in place. */
  lemma AddThenRemove(favs: seq<string>, id: string)
    ensures ClientToggle(ClientToggle(favs, id, false), id, true) == RemoveAll(favs, id)
    ensures id !in favs ==> ClientToggle(ClientToggle(favs, id, false), id, true) == favs
  {
    RemoveAllAppend(favs, [id], id);
    assert [id][1..] == [];
  }

  /** One click on the heart: the client's user data after it, the store after it, the server call made and any navigation. */
  datatype ToggleRun = ToggleRun(
    userData: Option<UserDoc>,
    db: Store,
    call: Option<ToggleFavoriteInput>,
    redirect: Option<string>)

  /**
   * `handleToggleFavorite` for a signed-in `user` (its uid) or none. The client
   * list is updated after the server call returns, whatever `success` it
   * reports; if the call throws, or there is no user data to update, the
   * client data stays as it was.
   */
  function HandleToggleFavorite(kind: CardKind, user: Option<string>, userData: Option<UserDoc>, id: string, db: Store, fault: Fault): (t: ToggleRun)
    ensures user.None? ==> t == ToggleRun(userData, db, None, Some(LoginPath))
    ensures user.Some? ==> t.call == Some(ToggleFavoriteInput(user.value, id, ItemType(kind), IsFavorited(userData, kind, id)))
    ensures t.userData.Some? ==>
      (userData.Some? && t.userData.value == WithFavorites(userData.value, ItemType(kind), Favorites(t.userData.value, kind)))
    ensures user.Some? && user.value != "" && id != "" && userData.Some? ==>
      t.userData.Some? && Favorites(t.userData.value, kind) == ClientToggle(Favorites(userData.value, kind), id, IsFavorited(userData, kind, id))
    ensures t.call.Some? ==> t.db == ToggleFavorite(db, t.call.value, fault).db
    ensures t.call.None? ==> t.db == db
    ensures user.Some? ==> t.redirect.None?
    // the server action throws on a missing argument, so the client update never runs
    ensures user.Some? && (user.value == "" || id == "") ==> t.userData == userData
  {
    match user
    case None => ToggleRun(userData, db, None, Some(LoginPath))
    case Some(uid) =>
      var wasFavorited := IsFavorited(userData, kind, id);
      var input := ToggleFavoriteInput(uid, id, ItemType(kind), wasFavorited);
      var server := ToggleFavorite(db, input, fault);
      if server.outcome.Threw? || userData.None? then ToggleRun(userData, server.db, Some(input), None)
      else
        var u := userData.value;
        var updated := WithFavorites(u, ItemType(kind), ClientToggle(Favorites(u, kind), id, wasFavorited));
        ToggleRun(Some(updated), server.db, Some(input), None)
  }

  /** The client list and the server field hold the same ids, as sets. */
  ghost predicate Agree(userData: Option<UserDoc>, db: Store, uid: string, kind: CardKind) {
    userData.Some? && uid in db.users &&
    Elements(Favorites(userData.value, kind)) == Elements(Favorites(db.users[uid], kind))
  }

  /**
   * When the client and the server agree as sets before a click and the server
   * write goes through, they agree after it, and the id's membership flipped.
   */
  lemma ToggleKeepsAgreement(kind: CardKind, uid: string, userData: Option<UserDoc>, id: string, db: Store)
    requires uid != "" && id != ""
    requires Agree(userData, db, uid, kind)
    ensures var t := HandleToggleFavorite(kind, Some(uid), userData, id, db, NoFault);
      && Agree(t.userData, t.db, uid, kind)
      && (id in Favorites(t.userData.value, kind) <==> id !in Favorites(userData.value, kind))
  {
    var u := userData.value;
    var t := HandleToggleFavorite(kind, Some(uid), userData, id, db, NoFault);
    var before := Favorites(db.users[uid], kind);
    var after := Favorites(t.db.users[uid], kind);
    if IsFavorited(userData, kind, id) {
      assert Elements(after) == Elements(before) - {id};
    } else {
      assert Elements(after) == Elements(before) + {id};
      assert Elements(Favorites(u, kind) + [id]) == Elements(Favorites(u, kind)) + {id};
    }
  }

  /**
   * The client ignores `{success: false}`: when the server write is rejected
   * the client list still flips, so an agreeing pair stops agreeing.
   */
  lemma RejectedWriteDiverges(kind: CardKind, uid: string, userData: Option<UserDoc>, id: string, db: Store)
    requires uid != "" && id != ""
    requires Agree(userData, db, uid, kind)
    ensures !Agree(HandleToggleFavorite(kind, Some(uid), userData, id, db, UpdateFails).userData, db, uid, kind)
  {
    var t := HandleToggleFavorite(kind, Some(uid), userData, id, db, UpdateFails);
    var favs := Favorites(userData.value, kind);
    if id in favs {
      assert id !in Elements(Favorites(t.userData.value, kind));
      assert id in Elements(favs);
    } else {
      assert id in Elements(Favorites(t.userData.value, kind));
    }
  }

  /** The card's `isFavorited` flag sent to the server matches the server's own membership when they agree. */
  lemma FlagMatchesServer(kind: CardKind, uid: string, userData: Option<UserDoc>, id: string, db: Store)
    requires Agree(userData, db, uid, kind)
    ensures IsFavorited(userData, kind, id) <==> id in Favorites(db.users[uid], kind)
  {
    assert id in Favorites(userData.value, kind) <==> id in Elements(Favorites(userData.value, kind));
  }

  /** `handleAddToCart`: the meal's fields, with the price string converted by `parseFloat`, and no quantity. */
  function AddToCartPayload(id: string, name: string, price: string, imageUrl: string, parseFloat: string -> real): (p: ItemPayload)
    ensures p.id == id && p.name == name && p.imageUrl == imageUrl && p.price == parseFloat(price)
  {
    ItemPayload(id, name, parseFloat(price), imageUrl)
  }

  /** Adding a meal from its card puts that meal in the cart, under its id. */
  lemma AddToCartAdds(s: CartState, id: string, name: string, price: string, imageUrl: string, parseFloat: string -> real)
    requires IndexOf(s.items, id).None?
    ensures Reducer(s, AddItem(AddToCartPayload(id, name, price, imageUrl, parseFloat))).items ==
      s.items + [CartItem(id, name, parseFloat(price), 1, imageUrl)]
  {
  }
}

=== FILE: cart.dfy ===
/**
 * The client-side cart: `cartReducer`, a pure and total state machine over
 * `{items, isCartOpen}`, and the invariant every reachable state keeps.
 */
module Cart {
  import opened Wrappers

  datatype CartItem = CartItem(id: string, name: string, price: real, quantity: int, imageUrl: string)

  /** An ADD_ITEM payload: a cart item without its quantity. */
  datatype ItemPayload = ItemPayload(id: string, name: string, price: real, imageUrl: string)

  datatype CartState = CartState(items: seq<CartItem>, isCartOpen: bool)

  datatype CartAction =
    | AddItem(payload: ItemPayload)
    | RemoveItem(id: string)
    | UpdateQuantity(id: string, quantity: int)
    | ToggleCart
    | ClearCart

  /** The state `CartProvider` starts from. */
  const Initial: CartState := CartState([], false)

  /** Position of the first entry with identifier `id` (`items.find`). */
  function IndexOf(items: seq<CartItem>, id: string): (r: Option<nat>)
    ensures r.None? <==> forall i :: 0 <= i < |items| ==> items[i].id != id
    ensures r.Some? ==> r.value < |items| && items[r.value].id == id
    ensures r.Some? ==> forall j :: 0 <= j < r.value ==> items[j].id != id
    decreases |items|
  {
    if items == [] then None
    else if items[0].id == id then Some(0)
    else match IndexOf(items[1..], id)
      case None => None
      case Some(k) => Some(k + 1)
  }

  /** Every entry with identifier `id` has its quantity raised by one. */
  function Bump(items: seq<CartItem>, id: string): seq<CartItem> {
    seq(|items|, i requires 0 <= i < |items| =>
      if items[i].id == id then items[i].(quantity := items[i].quantity + 1) else items[i])
  }

  /** Every entry with identifier `id` has its quantity set to `q`. */
  function SetQuantity(items: seq<CartItem>, id: string, q: int): seq<CartItem> {
    seq(|items|, i requires 0 <= i < |items| =>
      if items[i].id == id then items[i].(quantity := q) else items[i])
  }

  /** The entries whose identifier is not `id`, in their original order. */
  function Without(items: seq<CartItem>, id: string): (r: seq<CartItem>)
    ensures forall x :: x in r <==> x in items && x.id != id
    ensures (forall i :: 0 <= i < |items| ==> items[i].id != id) ==> r == items
    ensures |r| <= |items|
    decreases |items|
  {
    if items == [] then []
    else if items[0].id == id then Without(items[1..], id)
    else [items[0]] + Without(items[1..], id)
  }

  /** The entries whose quantity is positive, in their original order. */
  function KeepPositive(items: seq<CartItem>): (r: seq<CartItem>)
    ensures forall x :: x in r <==> x in items && x.quantity > 0
    ensures (forall i :: 0 <= i < |items| ==> items[i].quantity > 0) ==> r == items
    ensures |r| <= |items|
    decreases |items|
  {
    if items == [] then []
    else if items[0].quantity > 0 then [items[0]] + KeepPositive(items[1..])
    else KeepPositive(items[1..])
  }

  /** `cartReducer`. */
  function Reducer(s: CartState, a: CartAction): (r: CartState)
    ensures a.AddItem? || a.RemoveItem? || a.UpdateQuantity? ==> r.isCartOpen == s.isCartOpen
    ensures a.ToggleCart? ==> r.items == s.items && r.isCartOpen == !s.isCartOpen
  {
    match a
    case AddItem(p) =>
      if IndexOf(s.items, p.id).Some? then s.(items := Bump(s.items, p.id))
      else s.(items := s.items + [CartItem(p.id, p.name, p.price, 1, p.imageUrl)])
    case RemoveItem(id) => s.(items := Without(s.items, id))
    case UpdateQuantity(id, q) => s.(items := KeepPositive(SetQuantity(s.items, id, q)))
    case ToggleCart => s.(isCartOpen := !s.isCartOpen)
    case ClearCart => CartState([], false)
  }

  /** The state after dispatching `acts` in order, starting from `s`. */
  function Run(s: CartState, acts: seq<CartAction>): CartState
    decreases |acts|
  {
    if acts == [] then s else Run(Reducer(s, acts[0]), acts[1..])
  }

  /** The state after dispatching `AddItem(p)` `n` times. */
  function AddTimes(s: CartState, p: ItemPayload, n: nat): CartState {
    if n == 0 then s else Reducer(AddTimes(s, p, n - 1), AddItem(p))
  }

  predicate DistinctIds(items: seq<CartItem>) {
    forall i, j :: 0 <= i < j < |items| ==> items[i].id != items[j].id
  }

  /** The cart invariant: identifiers are pairwise distinct and every quantity is at least 1. */
  predicate Valid(s: CartState) {
    DistinctIds(s.items) && forall i :: 0 <= i < |s.items| ==> s.items[i].quantity >= 1
  }

  // ---------------------------------------------------------------- ADD_ITEM

  lemma AddExistingMerges(s: CartState, p: ItemPayload)
    requires IndexOf(s.items, p.id).Some?
    ensures var r := Reducer(s, AddItem(p));
      && |r.items| == |s.items|
      && r.isCartOpen == s.isCartOpen
      && (forall i :: 0 <= i < |s.items| && s.items[i].id == p.id ==>
            r.items[i] == CartItem(p.id, s.items[i].name, s.items[i].price, s.items[i].quantity + 1, s.items[i].imageUrl))
      && (forall i :: 0 <= i < |s.items| && s.items[i].id != p.id ==> r.items[i] == s.items[i])
  {
  }

  lemma AddNewAppends(s: CartState, p: ItemPayload)
    requires IndexOf(s.items, p.id).None?
    ensures var r := Reducer(s, AddItem(p));
      && r.items == s.items + [CartItem(p.id, p.name, p.price, 1, p.imageUrl)]
      && r.isCartOpen == s.isCartOpen
  {
  }

  /** In a cart with distinct identifiers, adding a present identifier bumps exactly its one entry. */
  lemma AddExistingBumpsOne(s: CartState, p: ItemPayload, k: nat)
    requires DistinctIds(s.items)
    requires IndexOf(s.items, p.id) == Some(k)
    ensures Reducer(s, AddItem(p)) == s.(items := s.items[k := s.items[k].(quantity := s.items[k].quantity + 1)])
  {
    var r := Reducer(s, AddItem(p));
    assert forall i :: 0 <= i < |s.items| && i != k ==> s.items[i].id != p.id;
  }

  /** `n` successive adds of a new identifier leave one entry for it, with quantity `n`, at the end. */
  lemma {:induction false} RepeatedAdd(s: CartState, p: ItemPayload, n: nat)
    requires Valid(s)
    requires IndexOf(s.items, p.id).None?
    requires n >= 1
    ensures var r := AddTimes(s, p, n);
      && Valid(r)
      && r.items == s.items + [CartItem(p.id, p.name, p.price, n, p.imageUrl)]
      && r.isCartOpen == s.isCartOpen
  {
    var e := CartItem(p.id, p.name, p.price, n, p.imageUrl);
    if n == 1 {
      assert AddTimes(s, p, 1) == Reducer(s, AddItem(p));
      ReducerPreservesValid(s, AddItem(p));
    } else {
      RepeatedAdd(s, p, n - 1);
      var q := AddTimes(s, p, n - 1);
      IndexOfAppendNew(s.items, CartItem(p.id, p.name, p.price, n - 1, p.imageUrl));
      var r := AddTimes(s, p, n);
      assert r == Reducer(q, AddItem(p));
      ReducerPreservesValid(q, AddItem(p));
      AddExistingBumpsOne(q, p, |s.items|);
      var k := |s.items|;
      assert q.items[k].(quantity := q.items[k].quantity + 1) == e;
      assert q.items[k := e] == s.items + [e];
      assert r.isCartOpen == q.isCartOpen;
    }
  }

  /** In a valid cart, adding the item stored at `k` again increments exactly that entry. */
  lemma AddPresentAt(s: CartState, k: nat)
    requires Valid(s)
    requires k < |s.items|
    ensures var item := s.items[k];
      Reducer(s, AddItem(ItemPayload(item.id, item.name, item.price, item.imageUrl))) ==
        CartState(s.items[k := item.(quantity := item.quantity + 1)], s.isCartOpen)
  {
    var item := s.items[k];
    IndexOfDistinct(s.items, k);
    AddExistingBumpsOne(s, ItemPayload(item.id, item.name, item.price, item.imageUrl), k);
  }

  /** With distinct identifiers, the entry at `k` is the one found for its identifier. */
  lemma IndexOfDistinct(items: seq<CartItem>, k: nat)
    requires DistinctIds(items)
    requires k < |items|
    ensures IndexOf(items, items[k].id) == Some(k)
  {
    var r := IndexOf(items, items[k].id);
    assert r.Some?;
    assert items[r.value].id == items[k].id;
  }

  lemma IndexOfAppendNew(items: seq<CartItem>, e: CartItem)
    requires IndexOf(items, e.id).None?
    ensures IndexOf(items + [e], e.id) == Some(|items|)
  {
    var r := IndexOf(items + [e], e.id);
    assert (items + [e])[|items|] == e;
  }

  /** After ADD_ITEM the identifier is in the cart. */
  lemma AddContains(s: CartState, p: ItemPayload)
    ensures IndexOf(Reducer(s, AddItem(p)).items, p.id).Some?
  {
    var r := Reducer(s, AddItem(p));
    match IndexOf(s.items, p.id)
    case Some(k) =>
      assert r.items[k].id == p.id;
    case None =>
      assert r.items[|s.items|].id == p.id;
  }

  // ---------------------------------------------------------------- REMOVE_ITEM

  lemma RemoveDeletes(s: CartState, id: string)
    ensures var r := Reducer(s, RemoveItem(id));
      && (forall x :: x in r.items <==> x in s.items && x.id != id)
      && IndexOf(r.items, id).None?
      && (IndexOf(s.items, id).None? ==> r == s)
      && r.isCartOpen == s.isCartOpen
  {
  }

  /** REMOVE_ITEM keeps the relative order of the remaining entries. */
  lemma {:induction false} WithoutAppend(a: seq<CartItem>, b: seq<CartItem>, id: string)
    ensures Without(a + b, id) == Without(a, id) + Without(b, id)
    decreases |a|
  {
    if a == [] {
      assert a + b == b;
    } else {
      assert (a + b)[1..] == a[1..] + b;
      WithoutAppend(a[1..], b, id);
    }
  }

  // ---------------------------------------------------------------- UPDATE_QUANTITY

  lemma UpdateNeverNonPositive(s: CartState, id: string, q: int)
    ensures var r := Reducer(s, UpdateQuantity(id, q));
      && (forall i :: 0 <= i < |r.items| ==> r.items[i].quantity > 0)
      && r.isCartOpen == s.isCartOpen
  {
    var r := Reducer(s, UpdateQuantity(id, q));
    assert forall i :: 0 <= i < |r.items| ==> r.items[i] in r.items;
  }

  /** In a valid cart, a positive quantity replaces the entry's quantity in place. */
  lemma UpdatePositiveSets(s: CartState, id: string, q: int)
    requires Valid(s)
    requires q > 0
    ensures var r := Reducer(s, UpdateQuantity(id, q));
      && |r.items| == |s.items|
      && (forall i :: 0 <= i < |s.items| && s.items[i].id == id ==> r.items[i] == s.items[i].(quantity := q))
      && (forall i :: 0 <= i < |s.items| && s.items[i].id != id ==> r.items[i] == s.items[i])
  {
    var m := SetQuantity(s.items, id, q);
    assert forall i :: 0 <= i < |m| ==> m[i].quantity > 0;
  }

  /** In a valid cart, a positive quantity for entry `k`'s identifier changes position `k` only. */
  lemma UpdateAt(s: CartState, k: nat, q: int)
    requires Valid(s)
    requires k < |s.items| && q > 0
    ensures Reducer(s, UpdateQuantity(s.items[k].id, q)).items == s.items[k := s.items[k].(quantity := q)]
  {
    var id := s.items[k].id;
    var m := SetQuantity(s.items, id, q);
    assert forall i :: 0 <= i < |m| ==> m[i].quantity > 0;
    assert forall i :: 0 <= i < |s.items| && i != k ==> s.items[i].id != id;
    assert m == s.items[k := s.items[k].(quantity := q)];
  }

  /** With distinct identifiers, removing entry `k`'s identifier cuts out exactly position `k`. */
  lemma WithoutAt(items: seq<CartItem>, k: nat)
    requires k < |items|
    requires forall j :: 0 <= j < |items| && j != k ==> items[j].id != items[k].id
    ensures Without(items, items[k].id) == items[..k] + items[k + 1..]
  {
    var id := items[k].id;
    var before, after := items[..k], items[k + 1..];
    forall i | 0 <= i < |before| ensures before[i].id != id {
      assert before[i] == items[i];
    }
    forall i | 0 <= i < |after| ensures after[i].id != id {
      assert after[i] == items[k + 1 + i];
    }
    var w := before + [items[k]] + after;
    WithoutSplit(before, items[k], after, id);
    assert Without(w, id) == before + after;
    assert w == items;
  }

  /** Removing an identifier that only the middle entry carries leaves the two sides. */
  lemma WithoutSplit(before: seq<CartItem>, x: CartItem, after: seq<CartItem>, id: string)
    requires x.id == id
    requires forall i :: 0 <= i < |before| ==> before[i].id != id
    requires forall i :: 0 <= i < |after| ==> after[i].id != id
    ensures Without(before + [x] + after, id) == before + after
  {
    assert before + [x] + after == before + ([x] + after);
    WithoutAppend(before, [x] + after, id);
    assert ([x] + after)[1..] == after;
  }

  /** In a valid cart, REMOVE_ITEM of the entry at `k` deletes exactly that position, keeping the others in order. */
  lemma RemoveKeepsOrder(s: CartState, k: nat)
    requires Valid(s)
    requires k < |s.items|
    ensures Reducer(s, RemoveItem(s.items[k].id)) == s.(items := s.items[..k] + s.items[k + 1..])
  {
    WithoutAt(s.items, k);
  }

  /** In a valid cart, a quantity of zero or less removes exactly that entry, as REMOVE_ITEM does. */
  lemma UpdateNonPositiveRemoves(s: CartState, id: string, q: int)
    requires Valid(s)
    requires q <= 0
    ensures Reducer(s, UpdateQuantity(id, q)) == Reducer(s, RemoveItem(id))
  {
    SetThenKeepIsWithout(s.items, id, q);
  }

  lemma {:induction false} SetThenKeepIsWithout(items: seq<CartItem>, id: string, q: int)
    requires forall i :: 0 <= i < |items| ==> items[i].quantity >= 1
    requires q <= 0
    ensures KeepPositive(SetQuantity(items, id, q)) == Without(items, id)
    decreases |items|
  {
    if items != [] {
      SetThenKeepIsWithout(items[1..], id, q);
      assert SetQuantity(items, id, q)[1..] == SetQuantity(items[1..], id, q);
    }
  }

  // ---------------------------------------------------------------- TOGGLE_CART / CLEAR_CART

  lemma ToggleFlips(s: CartState)
    ensures Reducer(s, ToggleCart) == CartState(s.items, !s.isCartOpen)
    ensures Reducer(Reducer(s, ToggleCart), ToggleCart) == s
  {
  }

  lemma ClearEmpties(s: CartState)
    ensures Reducer(s, ClearCart) == Initial
  {
  }

  // ---------------------------------------------------------------- the invariant

  lemma {:induction false} WithoutKeepsDistinct(items: seq<CartItem>, id: string)
    requires DistinctIds(items)
    ensures DistinctIds(Without(items, id))
    decreases |items|
  {
    if items != [] {
      WithoutKeepsDistinct(items[1..], id);
      NotInTail(items);
    }
  }

  lemma {:induction false} KeepPositiveKeepsDistinct(items: seq<CartItem>)
    requires DistinctIds(items)
    ensures DistinctIds(KeepPositive(items))
    decreases |items|
  {
    if items != [] {
      KeepPositiveKeepsDistinct(items[1..]);
      NotInTail(items);
    }
  }

  /** The head's identifier belongs to no entry of the tail. */
  lemma NotInTail(items: seq<CartItem>)
    requires DistinctIds(items) && items != []
    ensures forall x :: x in items[1..] ==> x.id != items[0].id
    ensures DistinctIds(items[1..])
  {
    forall x | x in items[1..]
      ensures x.id != items[0].id
    {
      var k :| 0 <= k < |items[1..]| && items[1..][k] == x;
      assert items[k + 1] == x;
    }
  }

  lemma AddPreservesValid(s: CartState, p: ItemPayload)
    ensures Valid(s) ==> Valid(Reducer(s, AddItem(p)))
  {
    var r := Reducer(s, AddItem(p));
    if !Valid(s) {
    } else if IndexOf(s.items, p.id).None? {
      assert forall i :: 0 <= i < |s.items| ==> r.items[i] == s.items[i] && s.items[i].id != p.id;
    } else {
      assert forall i :: 0 <= i < |s.items| ==> r.items[i].id == s.items[i].id;
    }
  }

  lemma RemovePreservesValid(s: CartState, id: string)
    requires Valid(s)
    ensures Valid(Reducer(s, RemoveItem(id)))
  {
    var r := Reducer(s, RemoveItem(id));
    WithoutKeepsDistinct(s.items, id);
    assert forall i :: 0 <= i < |r.items| ==> r.items[i] in r.items;
  }

  lemma UpdatePreservesValid(s: CartState, id: string, q: int)
    requires Valid(s)
    ensures Valid(Reducer(s, UpdateQuantity(id, q)))
  {
    var r := Reducer(s, UpdateQuantity(id, q));
    var m := SetQuantity(s.items, id, q);
    assert forall i :: 0 <= i < |m| ==> m[i].id == s.items[i].id;
    KeepPositiveKeepsDistinct(m);
    assert forall i :: 0 <= i < |r.items| ==> r.items[i] in r.items;
  }

  /** Every action keeps the cart invariant. */
  lemma ReducerPreservesValid(s: CartState, a: CartAction)
    requires Valid(s)
    ensures Valid(Reducer(s, a))
  {
    match a
    case AddItem(p) => AddPreservesValid(s, p);
    case RemoveItem(id) => RemovePreservesValid(s, id);
    case UpdateQuantity(id, q) => UpdatePreservesValid(s, id, q);
    case ToggleCart =>
    case ClearCart =>
  }

  lemma {:induction false} RunPreservesValid(s: CartState, acts: seq<CartAction>)
    requires Valid(s)
    ensures Valid(Run(s, acts))
    decreases |acts|
  {
    if acts != [] {
      ReducerPreservesValid(s, acts[0]);
      RunPreservesValid(Reducer(s, acts[0]), acts[1..]);
    }
  }

  /** Every state reachable from the initial state satisfies the cart invariant. */
  lemma ReachableValid(acts: seq<CartAction>)
    ensures Valid(Run(Initial, acts))
  {
    RunPreservesValid(Initial, acts);
  }
}

/** The `useCart` hook: named dispatch wrappers over the reducer. */
module UseCart {
  import opened Cart

  /** `addItem(item)`: dispatches ADD_ITEM (the toast it also shows is a view concern). */
  function AddItemToCart(s: CartState, item: ItemPayload): (r: CartState)
    ensures Valid(s) ==> Valid(r)
    ensures r.isCartOpen == s.isCartOpen
    ensures IndexOf(r.items, item.id).Some?
    ensures |r.items| == |s.items| + (if IndexOf(s.items, item.id).Some? then 0 else 1)
  {
    AddContains(s, item);
    AddPreservesValid(s, item);
    Reducer(s, AddItem(item))
  }

  /** `clearCart()`. */
  function ClearCartNow(s: CartState): (r: CartState)
    ensures r.items == [] && !r.isCartOpen
  {
    Reducer(s, ClearCart)
  }

  /** `toggleCart()`. */
  function ToggleCartNow(s: CartState): (r: CartState)
    ensures r.items == s.items && r.isCartOpen == !s.isCartOpen
  {
    Reducer(s, ToggleCart)
  }
}

=== FILE: dashboard.dfy ===
/**
 * The dashboard: the restaurant query `dashboard/page.tsx` builds from the
 * `category` and `sortBy` URL parameters, and the controls in
 * `dashboard-controls.tsx` that rewrite those parameters.
 */
module Dashboard {
  import opened Wrappers
  import opened Text
  import Sorting
  import opened RestaurantService

  /** URL search parameters, one value per key. */
  type Params = map<string, string>

  function Get(p: Params, key: string): (r: Option<string>)
    ensures r.Some? <==> key in p
    ensures r.Some? ==> r.value == p[key]
  {
    if key in p then Some(p[key]) else None
  }

  // ---------------------------------------------------------------------------
  // The page's query
  // ---------------------------------------------------------------------------

  /**
   * The cuisine the page filters on: none when `category` is absent, empty
   * or `all` in any letter case; otherwise the category with its first
   * character upper-cased.
   */
  function CategoryFilter(category: Option<string>): (r: Option<string>)
    ensures r.None? <==> category.None? || category.value == "" || Lower(category.value) == "all"
    ensures r.Some? ==> (|r.value| == |category.value| > 0 &&
      r.value[0] == UpperChar(category.value[0]) && r.value[1..] == category.value[1..])
  {
    if category.None? || category.value == "" || Lower(category.value) == "all" then None
    else Some(Capitalize(category.value))
  }

  datatype SortOrder = RatingDesc | NameAsc | NameDesc

  /** `name-asc` and `name-desc` pick name order; `rating`, anything else or nothing picks rating order. */
  function SortOrderOf(sortBy: Option<string>): (r: SortOrder)
    ensures r == NameAsc <==> sortBy == Some("name-asc")
    ensures r == NameDesc <==> sortBy == Some("name-desc")
    ensures r == RatingDesc <==> sortBy != Some("name-asc") && sortBy != Some("name-desc")
  {
    if sortBy == Some("rating") then RatingDesc
    else if sortBy == Some("name-asc") then NameAsc
    else if sortBy == Some("name-desc") then NameDesc
    else RatingDesc
  }

  /** "a may be listed before b" under each order. */
  function Precedes(o: SortOrder): (RestaurantRecord, RestaurantRecord) -> bool {
    match o
    case RatingDesc => (a: RestaurantRecord, b: RestaurantRecord) => a.data.rating >= b.data.rating
    case NameAsc => (a: RestaurantRecord, b: RestaurantRecord) => LexLe(a.data.name, b.data.name)
    case NameDesc => (a: RestaurantRecord, b: RestaurantRecord) => LexLe(b.data.name, a.data.name)
  }

  lemma PrecedesIsPreorder(o: SortOrder)
    ensures Sorting.Preorder(Precedes(o))
  {
    var le := Precedes(o);
    if o != RatingDesc {
      forall a: RestaurantRecord, b: RestaurantRecord
        ensures le(a, b) || le(b, a)
      {
        LexLeTotal(a.data.name, b.data.name);
      }
      forall a: RestaurantRecord, b: RestaurantRecord, c: RestaurantRecord | le(a, b) && le(b, c)
        ensures le(a, c)
      {
        if o == NameAsc {
          LexLeTransitive(a.data.name, b.data.name, c.data.name);
        } else {
          LexLeTransitive(c.data.name, b.data.name, a.data.name);
        }
      }
    }
  }

  /** The documents the `where('cuisine', '==', …)` clause keeps, as records. */
  function Matching(docs: seq<RestaurantDoc>, cuisine: Option<string>): (r: seq<RestaurantRecord>)
    ensures forall x :: x in r <==> exists d :: d in docs && (cuisine.None? || d.data.cuisine == cuisine.value) && x == RecordOf(d)
    ensures cuisine.None? ==> |r| == |docs|
    decreases |docs|
  {
    if docs == [] then []
    else
      var rest := Matching(docs[1..], cuisine);
      assert forall d :: d in docs <==> d == docs[0] || d in docs[1..];
      if cuisine.None? || docs[0].data.cuisine == cuisine.value then [RecordOf(docs[0])] + rest else rest
  }

  /** The query keeps one record per matching document, in collection order. */
  lemma {:induction false} MatchingAppend(a: seq<RestaurantDoc>, b: seq<RestaurantDoc>, cuisine: Option<string>)
    ensures Matching(a + b, cuisine) == Matching(a, cuisine) + Matching(b, cuisine)
    ensures forall d :: (Matching([d], cuisine) ==
      if cuisine.None? || d.data.cuisine == cuisine.value then [RecordOf(d)] else [])
    decreases |a|
  {
    if a == [] {
      assert a + b == b;
    } else {
      assert (a + b)[1..] == a[1..] + b;
      MatchingAppend(a[1..], b, cuisine);
    }
    forall d
      ensures Matching([d], cuisine) == if cuisine.None? || d.data.cuisine == cuisine.value then [RecordOf(d)] else []
    {
      assert [d][1..] == [];
    }
  }

  const FeaturedLimit: nat := 3

  datatype DashboardData = DashboardData(restaurants: seq<RestaurantRecord>, featuredMeals: seq<Meal>)

  /**
   * `getDashboardData`: the matching restaurants in the chosen order, and up
   * to three meals of the collection's first restaurant.
   */
  function GetDashboardData(docs: seq<RestaurantDoc>, category: Option<string>, sortBy: Option<string>): (r: DashboardData)
    ensures multiset(r.restaurants) == multiset(Matching(docs, CategoryFilter(category)))
    ensures Sorting.Sorted(r.restaurants, Precedes(SortOrderOf(sortBy)))
    ensures docs == [] ==> r.featuredMeals == []
    ensures docs != [] ==> |r.featuredMeals| == (if |docs[0].meals| < FeaturedLimit then |docs[0].meals| else FeaturedLimit)
    ensures docs != [] ==> r.featuredMeals <= docs[0].meals
  {
    var o := SortOrderOf(sortBy);
    PrecedesIsPreorder(o);
    var restaurants := Sorting.Sort(Matching(docs, CategoryFilter(category)), Precedes(o));
    var featured :=
      if docs == [] then []
      else if |docs[0].meals| < FeaturedLimit then docs[0].meals
      else docs[0].meals[..FeaturedLimit];
    DashboardData(restaurants, featured)
  }

  /** Exactly the restaurants of the selected cuisine are listed. */
  lemma DashboardListsMatching(docs: seq<RestaurantDoc>, category: Option<string>, sortBy: Option<string>, x: RestaurantRecord)
    ensures x in GetDashboardData(docs, category, sortBy).restaurants <==>
      exists d :: d in docs && x == RecordOf(d) &&
        (CategoryFilter(category).None? || d.data.cuisine == CategoryFilter(category).value)
  {
    var r := GetDashboardData(docs, category, sortBy).restaurants;
    var m := Matching(docs, CategoryFilter(category));
    assert x in r <==> x in multiset(r);
    assert x in m <==> x in multiset(m);
  }

  /** The order each `sortBy` value produces, pair by pair. */
  lemma DashboardOrder(docs: seq<RestaurantDoc>, category: Option<string>, sortBy: Option<string>, i: int, j: int)
    requires 0 <= i < j < |GetDashboardData(docs, category, sortBy).restaurants|
    ensures var s := GetDashboardData(docs, category, sortBy).restaurants;
      && (sortBy == Some("name-asc") ==> LexLe(s[i].data.name, s[j].data.name))
      && (sortBy == Some("name-desc") ==> LexLe(s[j].data.name, s[i].data.name))
      && (sortBy != Some("name-asc") && sortBy != Some("name-desc") ==> s[i].data.rating >= s[j].data.rating)
  {
    var s := GetDashboardData(docs, category, sortBy).restaurants;
    assert Precedes(SortOrderOf(sortBy))(s[i], s[j]);
  }

  /** The featured meals do not depend on the filter or the order. */
  lemma FeaturedIgnoresControls(docs: seq<RestaurantDoc>, c1: Option<string>, s1: Option<string>, c2: Option<string>, s2: Option<string>)
    ensures GetDashboardData(docs, c1, s1).featuredMeals == GetDashboardData(docs, c2, s2).featuredMeals
  {
    var f1 := GetDashboardData(docs, c1, s1).featuredMeals;
    var f2 := GetDashboardData(docs, c2, s2).featuredMeals;
    if docs != [] {
      assert f1 == f2 by {
        assert |f1| == |f2|;
        assert f1 <= docs[0].meals && f2 <= docs[0].meals;
      }
    }
  }

  // ---------------------------------------------------------------------------
  // The controls
  // ---------------------------------------------------------------------------

  datatype Category = Category(name: string, value: string)

  const AllValue := "all"

  const Categories: seq<Category> := [
    Category("All", "all"),
    Category("Japanese", "japanese"),
    Category("American", "american"),
    Category("Italian", "italian"),
    Category("Healthy", "healthy")
  ]

  /** The highlighted category: the lower-cased parameter, `all` when it is absent or empty. */
  function CurrentCategory(p: Params): (r: string)
    ensures ("category" !in p || p["category"] == "") ==> r == AllValue
    ensures "category" in p && p["category"] != "" ==> (|r| == |p["category"]| &&
      forall i :: 0 <= i < |r| ==> r[i] == LowerChar(p["category"][i]))
  {
    if "category" in p && p["category"] != "" then Lower(p["category"]) else AllValue
  }

  /** The selected order: the `sortBy` parameter, `rating` when it is absent or empty. */
  function CurrentSortBy(p: Params): (r: string)
    ensures r == "rating" || ("sortBy" in p && r == p["sortBy"])
    ensures r != "" && ("sortBy" in p && p["sortBy"] != "" ==> r == p["sortBy"])
  {
    if "sortBy" in p && p["sortBy"] != "" then p["sortBy"] else "rating"
  }

  /** `handleFilterChange`: `all` drops the `category` key, any other value sets it. */
  function HandleFilterChange(p: Params, categoryValue: string): (r: Params)
    ensures categoryValue == AllValue ==> "category" !in r
    ensures categoryValue != AllValue ==> "category" in r && r["category"] == categoryValue
    ensures forall k :: k != "category" ==> (k in r <==> k in p)
    ensures forall k :: k != "category" && k in p ==> k in r && r[k] == p[k]
  {
    if categoryValue == AllValue then p - {"category"} else p["category" := categoryValue]
  }

  /** `handleSortChange`: sets `sortBy`. */
  function HandleSortChange(p: Params, sortValue: string): (r: Params)
    ensures "sortBy" in r && r["sortBy"] == sortValue
    ensures forall k :: k != "sortBy" ==> (k in r <==> k in p)
    ensures forall k :: k != "sortBy" && k in p ==> k in r && r[k] == p[k]
  {
    p["sortBy" := sortValue]
  }

  /** Each button other than `All` is labelled with its value capitalised. */
  lemma CategoryNamesAreCapitalized(i: int)
    requires 0 <= i < |Categories|
    ensures Categories[i].value != AllValue ==> Capitalize(Categories[i].value) == Categories[i].name
    ensures Categories[i].value == AllValue <==> i == 0
  {
    var c := Categories[i];
    if i == 1 {
      assert Capitalize(c.value) == ['J'] + "apanese";
    } else if i == 2 {
      assert Capitalize(c.value) == ['A'] + "merican";
    } else if i == 3 {
      assert Capitalize(c.value) == ['I'] + "talian";
    } else if i == 4 {
      assert Capitalize(c.value) == ['H'] + "ealthy";
    }
  }

  /** The button values are already lower case. */
  lemma ValuesAreLower(i: int)
    requires 0 <= i < |Categories|
    ensures Lower(Categories[i].value) == Categories[i].value
  {
    var v := Categories[i].value;
    forall k | 0 <= k < |v| ensures LowerChar(v[k]) == v[k] {
      assert 'a' <= v[k] <= 'z';
    }
  }

  /**
   * Clicking a category button highlights that button, makes the page filter
   * on the cuisine named on the button (or on nothing, for `All`) and keeps
   * the selected order.
   */
  lemma ClickCategory(p: Params, i: int)
    requires 0 <= i < |Categories|
    ensures var q := HandleFilterChange(p, Categories[i].value);
      && CurrentCategory(q) == Categories[i].value
      && CategoryFilter(Get(q, "category")) == (if i == 0 then None else Some(Categories[i].name))
      && CurrentSortBy(q) == CurrentSortBy(p)
  {
    var q := HandleFilterChange(p, Categories[i].value);
    assert Get(q, "sortBy") == Get(p, "sortBy");
    if i == 0 {
      assert "category" !in q;
    } else {
      ClickCuisine(p, i);
    }
  }

  lemma ClickCuisine(p: Params, i: int)
    requires 0 < i < |Categories|
    ensures var q := HandleFilterChange(p, Categories[i].value);
      && CurrentCategory(q) == Categories[i].value
      && CategoryFilter(Get(q, "category")) == Some(Categories[i].name)
  {
    var c := Categories[i];
    var q := HandleFilterChange(p, c.value);
    assert q["category"] == c.value && c.value != "";
    ValuesAreLower(i);
    CategoryNamesAreCapitalized(i);
    assert Lower(c.value) != AllValue;
  }

  /** After clicking a cuisine button the page lists exactly the restaurants of that cuisine. */
  lemma ClickCuisineLists(docs: seq<RestaurantDoc>, p: Params, i: int, x: RestaurantRecord)
    requires 0 < i < |Categories|
    ensures var q := HandleFilterChange(p, Categories[i].value);
      x in GetDashboardData(docs, Get(q, "category"), Get(q, "sortBy")).restaurants <==>
        exists d :: d in docs && x == RecordOf(d) && d.data.cuisine == Categories[i].name
  {
    var q := HandleFilterChange(p, Categories[i].value);
    ClickCategory(p, i);
    DashboardListsMatching(docs, Get(q, "category"), Get(q, "sortBy"), x);
  }

  /** Choosing an order makes it the selected one and the page sorts by it; the category is kept. */
  lemma ChooseSort(p: Params, v: string)
    ensures var q := HandleSortChange(p, v);
      && (v != "" ==> CurrentSortBy(q) == v)
      && SortOrderOf(Get(q, "sortBy")) == SortOrderOf(Some(v))
      && CurrentCategory(q) == CurrentCategory(p)
      && Get(q, "category") == Get(p, "category")
  {
  }

  /**
   * A hand-written `category=JAPANESE` highlights the Japanese button, yet the
   * page filters on `JAPANESE`, which is not the cuisine `Japanese`.
   */
  lemma UpperCaseCategoryMismatch(p: Params)
    requires "category" in p && p["category"] == "JAPANESE"
    ensures CurrentCategory(p) == Categories[1].value
    ensures CategoryFilter(Get(p, "category")) == Some("JAPANESE")
    ensures Some(Categories[1].name) != CategoryFilter(Get(p, "category"))
  {
    var c := p["category"];
    assert |Lower(c)| == 8;
    assert Capitalize(c) == [UpperChar(c[0])] + c[1..];
    assert [c[0]] + c[1..] == c;
    assert Lower(c)[1] == 'a';
  }
}

=== FILE: order_service.dfy ===
/**
 * `order-service.ts`: materialising an order (`createOrder`, and the same two
 * writes behind `placeOrderAction`) and reading a user's recent orders
 * (`getOrders`).
 */
module OrderService {
  import opened Wrappers
  import opened Cart
  import opened DocumentStore
  import Sorting
  import Seqs

  datatype OrderInput = OrderInput(userId: string, items: seq<CartItem>, total: real)

  /** The store after an operation, and the new order's id or the reason it threw. */
  datatype Written = Written(db: Store, result: Result<nat, StoreError>)

  /**
   * Adds the order, then increments the user's loyalty points by `floor(total)`.
   * The two writes are not atomic together: if the increment is rejected, the
   * order stays recorded without its credit and the call throws.
   */
  function Materialize(db: Store, input: OrderInput, status: OrderStatus, now: int, fault: Fault): (w: Written)
    ensures fault == AddFails ==> w == Written(db, Err(WriteFailed))
    ensures fault != AddFails ==> w.db.orders == db.orders + [Order(db.nextId, input.userId, input.items, input.total, status, now)]
    ensures w.result.Ok? <==> fault == NoFault && CanUpdate(db, input.userId)
    ensures w.result.Ok? ==> w.result.value == db.nextId
    ensures w.result.Err? ==> w.db.users == db.users
    ensures FreshIds(db) ==> FreshIds(w.db)
  {
    if fault == AddFails then Written(db, Err(WriteFailed))
    else
      var added := AddOrder(db, input.userId, input.items, input.total, status, now);
      if fault == UpdateFails then Written(added, Err(WriteFailed))
      else if !CanUpdate(db, input.userId) then Written(added, Err(NotFound))
      else
        var u := added.users[input.userId];
        var credited := u.(loyaltyPoints := u.loyaltyPoints + PointsFor(input.total));
        assert fault == NoFault && CanUpdate(db, input.userId);
        Written(PutUser(added, input.userId, credited), Ok(db.nextId))
  }

  /** What a successful materialisation does to the users collection: one user credited, nobody else touched. */
  ghost predicate CreditedOnly(before: Store, after: Store, userId: string, total: real) {
    && userId in before.users && userId in after.users
    && after.users.Keys == before.users.Keys
    && after.users[userId] == before.users[userId].(loyaltyPoints := before.users[userId].loyaltyPoints + PointsFor(total))
    && forall k :: k in before.users && k != userId ==> after.users[k] == before.users[k]
  }

  lemma MaterializeCredits(db: Store, input: OrderInput, status: OrderStatus, now: int, fault: Fault)
    ensures var w := Materialize(db, input, status, now, fault);
      w.result.Ok? ==> CreditedOnly(db, w.db, input.userId, input.total)
  {
  }

  /** `createOrder`: one `paid` order appended, the buyer credited `floor(total)` points, the new id returned. */
  function CreateOrder(db: Store, input: OrderInput, now: int, fault: Fault): (w: Written)
    ensures w.result.Ok? ==>
      && w.db.orders == db.orders + [Order(w.result.value, input.userId, input.items, input.total, Paid, now)]
      && CreditedOnly(db, w.db, input.userId, input.total)
    ensures w.result.Ok? <==> fault == NoFault && CanUpdate(db, input.userId)
    ensures fault == AddFails ==> w.db == db
    ensures fault == UpdateFails ==> |w.db.orders| == |db.orders| + 1 && w.db.users == db.users
    ensures FreshIds(db) && w.result.Ok? ==> forall i :: 0 <= i < |db.orders| ==> db.orders[i].id != w.result.value
  {
    MaterializeCredits(db, input, Paid, now, fault);
    Materialize(db, input, Paid, now, fault)
  }


  // ---------------------------------------------------------------- getOrders

  /** The serialisable projection of a stored order (`createdAt` stands for its ISO rendering). */
  datatype SerializableOrder = SerializableOrder(id: nat, userId: string, total: real, status: OrderStatus, createdAt: int, items: seq<CartItem>)

  function Project(o: Order): (r: SerializableOrder)
    ensures r.id == o.id && r.userId == o.userId && r.total == o.total
    ensures r.status == o.status && r.items == o.items && r.createdAt == o.createdAt
  {
    SerializableOrder(o.id, o.userId, o.total, o.status, o.createdAt, o.items)
  }

  /** `where('userId', '==', userId)`. */
  function OfUser(orders: seq<Order>, userId: string): (r: seq<Order>)
    ensures forall o :: o in r <==> o in orders && o.userId == userId
    decreases |orders|
  {
    if orders == [] then []
    else if orders[0].userId == userId then [orders[0]] + OfUser(orders[1..], userId)
    else OfUser(orders[1..], userId)
  }

  /** The query never yields an order more often than the collection holds it. */
  lemma {:induction false} OfUserWithin(orders: seq<Order>, userId: string)
    ensures multiset(OfUser(orders, userId)) <= multiset(orders)
    decreases |orders|
  {
    if orders != [] {
      OfUserWithin(orders[1..], userId);
      assert orders == [orders[0]] + orders[1..];
    }
  }

  /** The query keeps each matching order once, in collection order. */
  lemma {:induction false} OfUserAppend(a: seq<Order>, b: seq<Order>, userId: string)
    ensures OfUser(a + b, userId) == OfUser(a, userId) + OfUser(b, userId)
    ensures forall o :: OfUser([o], userId) == if o.userId == userId then [o] else []
    decreases |a|
  {
    if a == [] {
      assert a + b == b;
    } else {
      assert (a + b)[1..] == a[1..] + b;
      OfUserAppend(a[1..], b, userId);
    }
    forall o
      ensures OfUser([o], userId) == if o.userId == userId then [o] else []
    {
      assert [o][1..] == [];
    }
  }

  /** `orderBy('createdAt', 'desc')`: `a` may come before `b`. */
  predicate NewerOrSame(a: Order, b: Order) {
    a.createdAt >= b.createdAt
  }

  lemma NewerOrSameIsPreorder()
    ensures Sorting.Preorder(NewerOrSame)
  {
  }

  const OrdersLimit: nat := 10

  /** `orderBy('createdAt', 'desc').limit(10)` over the user's orders. */
  function Newest(db: Store, userId: string): (top: seq<Order>)
    ensures |top| == if |OfUser(db.orders, userId)| <= OrdersLimit then |OfUser(db.orders, userId)| else OrdersLimit
    ensures Sorting.Sorted(top, NewerOrSame)
    ensures multiset(top) <= multiset(OfUser(db.orders, userId))
    ensures forall o :: o in top ==> o in db.orders && o.userId == userId
    ensures forall o :: o in db.orders && o.userId == userId && o !in top ==>
      forall x :: x in top ==> x.createdAt >= o.createdAt
  {
    NewerOrSameIsPreorder();
    OfUserWithin(db.orders, userId);
    var mine := OfUser(db.orders, userId);
    var sorted := Sorting.Sort(mine, NewerOrSame);
    var n := if |sorted| <= OrdersLimit then |sorted| else OrdersLimit;
    NewestProof(mine, sorted, n);
    sorted[..n]
  }

  lemma NewestProof(mine: seq<Order>, sorted: seq<Order>, n: nat)
    requires multiset(sorted) == multiset(mine)
    requires Sorting.Sorted(sorted, NewerOrSame)
    requires n <= |sorted|
    ensures Sorting.Sorted(sorted[..n], NewerOrSame)
    ensures multiset(sorted[..n]) <= multiset(mine)
    ensures forall o :: o in sorted[..n] ==> o in mine
    ensures forall o :: o in mine && o !in sorted[..n] ==>
      forall x :: x in sorted[..n] ==> x.createdAt >= o.createdAt
  {
    var top := sorted[..n];
    forall i, j | 0 <= i < j < |top|
      ensures NewerOrSame(top[i], top[j])
    {
      assert top[i] == sorted[i] && top[j] == sorted[j];
    }
    forall o | o in top
      ensures o in mine
    {
      assert o in multiset(sorted);
    }
    assert sorted == top + sorted[n..];
    Sorting.PrefixPrecedesRest(sorted, NewerOrSame, n);
    forall o | o in mine && o !in top
      ensures forall x :: x in top ==> x.createdAt >= o.createdAt
    {
      assert o in multiset(sorted);
      assert o in sorted[n..];
    }
  }

  /** `getOrders(userId)`: the user's orders, newest first, at most ten of them, as stored. */
  function GetOrders(db: Store, userId: string): (r: seq<SerializableOrder>)
    ensures |r| == |Newest(db, userId)|
    ensures forall i :: 0 <= i < |r| ==> r[i] == Project(Newest(db, userId)[i])
  {
    var top := Newest(db, userId);
    seq(|top|, i requires 0 <= i < |top| => Project(top[i]))
  }

  /**
   * The result belongs to the user, is newest first, holds min(10, n) of the
   * user's n orders, each as stored and, when ids are fresh, each once; no
   * order of the user left out is newer than any order returned.
   */
  lemma GetOrdersSpec(db: Store, userId: string)
    ensures var r := GetOrders(db, userId);
      && |r| <= OrdersLimit
      && |r| == (if |OfUser(db.orders, userId)| <= OrdersLimit then |OfUser(db.orders, userId)| else OrdersLimit)
      && (forall i :: 0 <= i < |r| ==> r[i].userId == userId)
      && (forall i, j :: 0 <= i < j < |r| ==> r[i].createdAt >= r[j].createdAt)
      && (forall i :: 0 <= i < |r| ==> exists o :: o in db.orders && o.userId == userId && r[i] == Project(o))
      && (forall o :: o in db.orders && o.userId == userId && Project(o) !in r ==>
            forall i :: 0 <= i < |r| ==> r[i].createdAt >= o.createdAt)
      && (FreshIds(db) ==> forall i, j :: 0 <= i < j < |r| ==> r[i].id != r[j].id)
  {
    GetOrdersShape(db, userId);
    GetOrdersSelection(db, userId);
    GetOrdersDistinct(db, userId);
  }

  /** The clauses of `GetOrdersSpec` on the result's size, owner and order. */
  lemma GetOrdersShape(db: Store, userId: string)
    ensures var r := GetOrders(db, userId);
      && |r| <= OrdersLimit
      && |r| == (if |OfUser(db.orders, userId)| <= OrdersLimit then |OfUser(db.orders, userId)| else OrdersLimit)
      && (forall i :: 0 <= i < |r| ==> r[i].userId == userId)
      && (forall i, j :: 0 <= i < j < |r| ==> r[i].createdAt >= r[j].createdAt)
  {
    var top := Newest(db, userId);
    var r := GetOrders(db, userId);
    forall i | 0 <= i < |r|
      ensures r[i].userId == userId
    {
      assert top[i] in top;
    }
  }

  /** The two clauses of `GetOrdersSpec` that relate the result to the stored orders. */
  lemma GetOrdersSelection(db: Store, userId: string)
    ensures var r := GetOrders(db, userId);
      && (forall i :: 0 <= i < |r| ==> exists o :: o in db.orders && o.userId == userId && r[i] == Project(o))
      && (forall o :: o in db.orders && o.userId == userId && Project(o) !in r ==>
            forall i :: 0 <= i < |r| ==> r[i].createdAt >= o.createdAt)
  {
    ProjectedSelection(db, userId, Newest(db, userId), GetOrders(db, userId));
  }

  /** The selection facts about `top`, carried over to its projection `r`. */
  lemma ProjectedSelection(db: Store, userId: string, top: seq<Order>, r: seq<SerializableOrder>)
    requires |r| == |top| && forall i :: 0 <= i < |r| ==> r[i] == Project(top[i])
    requires forall o :: o in top ==> o in db.orders && o.userId == userId
    requires forall o :: o in db.orders && o.userId == userId && o !in top ==>
      forall x :: x in top ==> x.createdAt >= o.createdAt
    ensures forall i :: 0 <= i < |r| ==> exists o :: o in db.orders && o.userId == userId && r[i] == Project(o)
    ensures forall o :: o in db.orders && o.userId == userId && Project(o) !in r ==>
      forall i :: 0 <= i < |r| ==> r[i].createdAt >= o.createdAt
  {
    forall i | 0 <= i < |r|
      ensures exists o :: o in db.orders && o.userId == userId && r[i] == Project(o)
    {
      assert top[i] in top;
      assert top[i] in db.orders && top[i].userId == userId && r[i] == Project(top[i]);
    }
    assert forall i :: 0 <= i < |r| ==> exists o :: o in db.orders && o.userId == userId && r[i] == Project(o);
    forall o | o in db.orders && o.userId == userId && Project(o) !in r
      ensures forall i :: 0 <= i < |r| ==> r[i].createdAt >= o.createdAt
    {
      forall i | 0 <= i < |top|
        ensures top[i] != o
      {
        assert r[i] == Project(top[i]);
      }
      forall i | 0 <= i < |r|
        ensures r[i].createdAt >= o.createdAt
      {
        assert top[i] in top;
      }
    }
  }

  /** With distinct stored ids, each stored order occurs at most once. */
  lemma {:induction false} DistinctIdsOnce(orders: seq<Order>, x: Order)
    requires forall i, j :: 0 <= i < j < |orders| ==> orders[i].id != orders[j].id
    ensures multiset(orders)[x] <= 1
    decreases |orders|
  {
    if orders != [] {
      var t := orders[1..];
      forall i, j | 0 <= i < j < |t|
        ensures t[i].id != t[j].id
      {
        assert t[i] == orders[i + 1] && t[j] == orders[j + 1];
      }
      DistinctIdsOnce(t, x);
      assert orders == [orders[0]] + t;
      if orders[0] == x {
        forall k | 0 <= k < |t|
          ensures t[k] != x
        {
          assert t[k] == orders[k + 1];
        }
      }
    }
  }

  /** When the store's ids are fresh, `getOrders` never lists the same order twice. */
  lemma GetOrdersDistinct(db: Store, userId: string)
    ensures var r := GetOrders(db, userId);
      FreshIds(db) ==> forall i, j :: 0 <= i < j < |r| ==> r[i].id != r[j].id
  {
    if FreshIds(db) {
      GetOrdersDistinctFresh(db, userId);
    }
  }

  lemma GetOrdersDistinctFresh(db: Store, userId: string)
    requires FreshIds(db)
    ensures var r := GetOrders(db, userId);
      forall i, j :: 0 <= i < j < |r| ==> r[i].id != r[j].id
  {
    var top := Newest(db, userId);
    OfUserWithin(db.orders, userId);
    assert multiset(top) <= multiset(db.orders);
    DrawnOnce(db.orders, top);
  }

  /** Orders drawn, without repetition, from orders with distinct ids have distinct ids. */
  lemma DrawnOnce(orders: seq<Order>, top: seq<Order>)
    requires forall i, j :: 0 <= i < j < |orders| ==> orders[i].id != orders[j].id
    requires multiset(top) <= multiset(orders)
    ensures forall i, j :: 0 <= i < j < |top| ==> top[i].id != top[j].id
  {
    forall i, j | 0 <= i < j < |top|
      ensures top[i].id != top[j].id
    {
      Seqs.RepeatCount(top, i, j);
      DistinctIdsOnce(orders, top[i]);
      assert top[i] in multiset(orders) && top[j] in multiset(orders);
      var p :| 0 <= p < |orders| && orders[p] == top[i];
      var q :| 0 <= q < |orders| && orders[q] == top[j];
      assert p != q;
    }
  }

  /** A user without orders gets the empty list. */
  lemma GetOrdersEmpty(db: Store, userId: string)
    requires forall i :: 0 <= i < |db.orders| ==> db.orders[i].userId != userId
    ensures GetOrders(db, userId) == []
  {
  }
}

=== FILE: restaurant_service.dfy ===
/**
 * `restaurant-service.ts` over an abstract `restaurants` collection: a
 * sequence of documents in the collection's default order, each with its
 * `meals` subcollection.
 */
module RestaurantService {
  import opened Wrappers

  datatype Meal = Meal(id: string, name: string, price: string, imageUrl: string)

  /** A restaurant document's fields. Seeded documents carry no field named `id`. */
  datatype RestaurantData = RestaurantData(name: string, cuisine: string, rating: real, slug: string, imageUrl: string, ownerId: Option<string>)

  datatype RestaurantDoc = RestaurantDoc(id: string, data: RestaurantData, meals: seq<Meal>)

  /** `{ id: doc.id, ...data }`: what the service hands to its callers. */
  datatype RestaurantRecord = RestaurantRecord(id: string, data: RestaurantData)

  function RecordOf(d: RestaurantDoc): (r: RestaurantRecord)
    ensures r.id == d.id && r.data == d.data
  {
    RestaurantRecord(d.id, d.data)
  }

  /** `getRestaurants`: every restaurant, in collection order, with `ownerId` stripped. */
  function GetRestaurants(docs: seq<RestaurantDoc>): (r: seq<RestaurantRecord>)
    ensures |r| == |docs|
    ensures forall i :: 0 <= i < |docs| ==>
      r[i].id == docs[i].id && r[i].data == docs[i].data.(ownerId := None)
  {
    seq(|docs|, i requires 0 <= i < |docs| => RestaurantRecord(docs[i].id, docs[i].data.(ownerId := None)))
  }

  /** `getRestaurantsByOwner`: the documents whose `ownerId` equals `owner`, `ownerId` kept. */
  function GetRestaurantsByOwner(docs: seq<RestaurantDoc>, owner: string): (r: seq<RestaurantRecord>)
    ensures forall x :: x in r <==> exists d :: d in docs && d.data.ownerId == Some(owner) && x == RecordOf(d)
    ensures forall x :: x in r ==> x.data.ownerId == Some(owner)
    decreases |docs|
  {
    if docs == [] then []
    else
      var rest := GetRestaurantsByOwner(docs[1..], owner);
      assert forall d :: d in docs <==> d == docs[0] || d in docs[1..];
      if docs[0].data.ownerId == Some(owner) then [RecordOf(docs[0])] + rest else rest
  }

  /** The query keeps one record per owned document, in collection order. */
  lemma {:induction false} ByOwnerAppend(a: seq<RestaurantDoc>, b: seq<RestaurantDoc>, owner: string)
    ensures GetRestaurantsByOwner(a + b, owner) == GetRestaurantsByOwner(a, owner) + GetRestaurantsByOwner(b, owner)
    ensures forall d :: (GetRestaurantsByOwner([d], owner) ==
      if d.data.ownerId == Some(owner) then [RecordOf(d)] else [])
    decreases |a|
  {
    if a == [] {
      assert a + b == b;
    } else {
      assert (a + b)[1..] == a[1..] + b;
      ByOwnerAppend(a[1..], b, owner);
    }
    forall d
      ensures GetRestaurantsByOwner([d], owner) == if d.data.ownerId == Some(owner) then [RecordOf(d)] else []
    {
      assert [d][1..] == [];
    }
  }

  /** Position of the first document satisfying the query (`limit(1)`). */
  function FirstNamed(docs: seq<RestaurantDoc>, name: string): (r: Option<nat>)
    ensures r.None? <==> forall i :: 0 <= i < |docs| ==> docs[i].data.name != name
    ensures r.Some? ==> r.value < |docs| && docs[r.value].data.name == name
    ensures r.Some? ==> forall j :: 0 <= j < r.value ==> docs[j].data.name != name
    decreases |docs|
  {
    if docs == [] then None
    else if docs[0].data.name == name then Some(0)
    else match FirstNamed(docs[1..], name)
      case None => None
      case Some(k) => Some(k + 1)
  }

  datatype NotFound = RestaurantNotFound(name: string)

  /** `getMenuForRestaurant`: throws for an unknown name, else every meal of the first restaurant so named. */
  function GetMenuForRestaurant(docs: seq<RestaurantDoc>, name: string): (r: Result<seq<Meal>, NotFound>)
    ensures r.Err? <==> forall i :: 0 <= i < |docs| ==> docs[i].data.name != name
    ensures r.Err? ==> r.error == RestaurantNotFound(name)
    ensures r.Ok? ==> exists k :: (0 <= k < |docs| && docs[k].data.name == name && r.value == docs[k].meals &&
      forall j :: 0 <= j < k ==> docs[j].data.name != name)
  {
    match FirstNamed(docs, name)
    case None => Err(RestaurantNotFound(name))
    case Some(k) => Ok(docs[k].meals)
  }

  /** Position of the document with identifier `id`, if any. */
  function Locate(docs: seq<RestaurantDoc>, id: string): (r: Option<nat>)
    ensures r.None? <==> forall i :: 0 <= i < |docs| ==> docs[i].id != id
    ensures r.Some? ==> r.value < |docs| && docs[r.value].id == id
    decreases |docs|
  {
    if docs == [] then None
    else if docs[0].id == id then Some(0)
    else match Locate(docs[1..], id)
      case None => None
      case Some(k) => Some(k + 1)
  }

  /** `getRestaurantById`: `null` exactly when no document has the id, otherwise that document's record. */
  function GetRestaurantById(docs: seq<RestaurantDoc>, id: string): (r: Option<RestaurantRecord>)
    ensures r.None? <==> forall i :: 0 <= i < |docs| ==> docs[i].id != id
    ensures r.Some? ==> r.value.id == id && exists d :: d in docs && d.id == id && r.value == RecordOf(d)
  {
    match Locate(docs, id)
    case None => None
    case Some(k) => Some(RecordOf(docs[k]))
  }

  /**
   * `getMenuForRestaurantById` reads `restaurants/{id}/meals` by path, without
   * looking at the parent document. A subcollection outlives a deleted parent,
   * so `orphaned` holds the `meals` left under ids whose restaurant document
   * is gone; an id with neither a document nor orphaned meals reads as empty.
   */
  function GetMenuForRestaurantById(docs: seq<RestaurantDoc>, orphaned: map<string, seq<Meal>>, id: string): (r: seq<Meal>)
    ensures (forall i :: 0 <= i < |docs| ==> docs[i].id != id) ==>
      r == (if id in orphaned then orphaned[id] else [])
    ensures forall k :: 0 <= k < |docs| && docs[k].id == id && (forall j :: 0 <= j < k ==> docs[j].id != id) ==> r == docs[k].meals
  {
    match Locate(docs, id)
    case None => if id in orphaned then orphaned[id] else []
    case Some(k) => LocateIsFirst(docs, id); docs[k].meals
  }

  lemma {:induction false} LocateIsFirst(docs: seq<RestaurantDoc>, id: string)
    requires Locate(docs, id).Some?
    ensures forall j :: 0 <= j < Locate(docs, id).value ==> docs[j].id != id
    decreases |docs|
  {
    if docs[0].id != id {
      LocateIsFirst(docs[1..], id);
      forall j | 0 <= j < Locate(docs, id).value
        ensures docs[j].id != id
      {
        if j > 0 {
          assert docs[j] == docs[1..][j - 1];
        }
      }
    }
  }
}

=== FILE: seqs.dfy ===
/** Sequence helpers used by more than one component. */
module Seqs {

  /** Every occurrence of `x` removed, the remaining elements in their original order. */
  function RemoveAll<T(==,!new)>(s: seq<T>, x: T): (r: seq<T>)
    ensures forall y :: y in r <==> y in s && y != x
    ensures x !in s ==> r == s
    ensures |r| <= |s|
    decreases |s|
  {
    if s == [] then []
    else if s[0] == x then RemoveAll(s[1..], x)
    else [s[0]] + RemoveAll(s[1..], x)
  }

  /** The elements of a sequence, forgetting order and multiplicity. */
  function Elements<T(!new)>(s: seq<T>): (r: set<T>)
    ensures forall y :: y in r <==> y in s
  {
    set y | y in s
  }

  /** Removing distributes over concatenation, so the survivors keep their relative order. */
  lemma {:induction false} RemoveAllAppend<T(!new)>(a: seq<T>, b: seq<T>, x: T)
    ensures RemoveAll(a + b, x) == RemoveAll(a, x) + RemoveAll(b, x)
    decreases |a|
  {
    if a == [] {
      assert a + b == b;
    } else {
      assert (a + b)[1..] == a[1..] + b;
      RemoveAllAppend(a[1..], b, x);
    }
  }

  /** A value found at two positions is counted at least twice. */
  lemma RepeatCount<T>(s: seq<T>, i: int, j: int)
    requires 0 <= i < j < |s|
    ensures s[i] == s[j] ==> multiset(s)[s[i]] >= 2
  {
    assert s == s[..j] + s[j..];
    assert s[i] in s[..j];
    assert s[j] == s[j..][0];
  }
}

=== FILE: shopping_cart.dfy ===
/**
 * `shopping-cart.tsx`: the cart total, the quantity buttons and the checkout
 * sequence (guards, `placeOrderAction`, then CLEAR_CART and TOGGLE_CART).
 */
module ShoppingCart {
  import opened Wrappers
  import opened Cart
  import opened DocumentStore
  import opened OrderService
  import opened Actions

  function LineTotal(item: CartItem): real {
    item.price * item.quantity as real
  }

  /** `items.reduce((acc, item) => acc + item.price * item.quantity, 0)`, folded from the left. */
  function TotalPrice(items: seq<CartItem>): (t: real)
    ensures items == [] ==> t == 0.0
    ensures (forall i :: 0 <= i < |items| ==> items[i].price >= 0.0 && items[i].quantity >= 0) ==> t >= 0.0
    decreases |items|
  {
    if items == [] then 0.0 else TotalPrice(items[..|items| - 1]) + LineTotal(items[|items| - 1])
  }

  lemma {:induction false} TotalAppend(a: seq<CartItem>, b: seq<CartItem>)
    ensures TotalPrice(a + b) == TotalPrice(a) + TotalPrice(b)
    decreases |b|
  {
    if b == [] {
      assert a + b == a;
    } else {
      var b' := b[..|b| - 1];
      assert (a + b)[..|a + b| - 1] == a + b';
      TotalAppend(a, b');
    }
  }

  /** Replacing one entry changes the total by the difference of the two line totals. */
  lemma TotalReplace(items: seq<CartItem>, k: nat, x: CartItem)
    requires k < |items|
    ensures TotalPrice(items[k := x]) == TotalPrice(items) - LineTotal(items[k]) + LineTotal(x)
  {
    assert items == items[..k] + [items[k]] + items[k + 1..];
    assert items[k := x] == items[..k] + [x] + items[k + 1..];
    TotalAppend(items[..k] + [items[k]], items[k + 1..]);
    TotalAppend(items[..k], [items[k]]);
    TotalAppend(items[..k] + [x], items[k + 1..]);
    TotalAppend(items[..k], [x]);
    assert TotalPrice([items[k]]) == LineTotal(items[k]) by {
      assert [items[k]][..0] == [];
    }
    assert TotalPrice([x]) == LineTotal(x) by {
      assert [x][..0] == [];
    }
  }

  /** ADD_ITEM raises the total by one unit price: the existing entry's, or the payload's for a new entry. */
  lemma TotalAfterAdd(s: CartState, p: ItemPayload)
    requires Valid(s)
    ensures TotalPrice(Reducer(s, AddItem(p)).items) ==
      TotalPrice(s.items) + match IndexOf(s.items, p.id) case Some(k) => s.items[k].price case None => p.price
  {
    match IndexOf(s.items, p.id)
    case Some(k) => TotalAfterAddExisting(s, p, k);
    case None => TotalAfterAddNew(s, p);
  }

  lemma TotalAfterAddExisting(s: CartState, p: ItemPayload, k: nat)
    requires DistinctIds(s.items)
    requires IndexOf(s.items, p.id) == Some(k)
    ensures TotalPrice(Reducer(s, AddItem(p)).items) == TotalPrice(s.items) + s.items[k].price
  {
    AddExistingBumpsOne(s, p, k);
    TotalBumpAt(s.items, k);
  }

  lemma TotalBumpAt(items: seq<CartItem>, k: nat)
    requires k < |items|
    ensures TotalPrice(items[k := items[k].(quantity := items[k].quantity + 1)]) == TotalPrice(items) + items[k].price
  {
    var x := items[k];
    TotalReplace(items, k, x.(quantity := x.quantity + 1));
    LineTotalBump(x);
  }

  lemma TotalAfterAddNew(s: CartState, p: ItemPayload)
    requires IndexOf(s.items, p.id).None?
    ensures TotalPrice(Reducer(s, AddItem(p)).items) == TotalPrice(s.items) + p.price
  {
    var e := CartItem(p.id, p.name, p.price, 1, p.imageUrl);
    AddNewAppends(s, p);
    TotalAppend(s.items, [e]);
    assert [e][..0] == [];
  }

  /** One more unit adds one unit price to the line total. */
  lemma LineTotalBump(x: CartItem)
    ensures LineTotal(x.(quantity := x.quantity + 1)) == LineTotal(x) + x.price
  {
    assert (x.quantity + 1) as real == x.quantity as real + 1.0;
  }

  /** REMOVE_ITEM of a present entry lowers the total by exactly that entry's line total. */
  lemma TotalAfterRemove(s: CartState, k: nat)
    requires Valid(s)
    requires k < |s.items|
    ensures TotalPrice(Reducer(s, RemoveItem(s.items[k].id)).items) == TotalPrice(s.items) - LineTotal(s.items[k])
  {
    var items := s.items;
    WithoutAt(items, k);
    assert items == items[..k] + [items[k]] + items[k + 1..];
    TotalAppend(items[..k] + [items[k]], items[k + 1..]);
    TotalAppend(items[..k], [items[k]]);
    TotalAppend(items[..k], items[k + 1..]);
    assert TotalPrice([items[k]]) == LineTotal(items[k]) by {
      assert [items[k]][..0] == [];
    }
  }

  // ---------------------------------------------------------------- the cart buttons

  /** `handleUpdateQuantity(id, quantity)`. */
  function HandleUpdateQuantity(s: CartState, id: string, quantity: int): (r: CartState)
    ensures forall i :: 0 <= i < |r.items| ==> r.items[i].quantity > 0
    ensures r.isCartOpen == s.isCartOpen
  {
    UpdateNeverNonPositive(s, id, quantity);
    Reducer(s, UpdateQuantity(id, quantity))
  }

  /** `handleRemoveItem(id)`. */
  function HandleRemoveItem(s: CartState, id: string): (r: CartState)
    ensures forall x :: x in r.items <==> x in s.items && x.id != id
    ensures r.isCartOpen == s.isCartOpen
  {
    RemoveDeletes(s, id);
    Reducer(s, RemoveItem(id))
  }

  /** The minus button (`quantity - 1`) at quantity 1 removes the entry, exactly as REMOVE_ITEM. */
  lemma MinusAtOneRemoves(s: CartState, k: nat)
    requires Valid(s)
    requires k < |s.items| && s.items[k].quantity == 1
    ensures var r := HandleUpdateQuantity(s, s.items[k].id, s.items[k].quantity - 1);
      r == Reducer(s, RemoveItem(s.items[k].id)) && IndexOf(r.items, s.items[k].id).None?
  {
    UpdateNonPositiveRemoves(s, s.items[k].id, 0);
    RemoveDeletes(s, s.items[k].id);
  }

  /** The minus button above quantity 1 lowers that one entry's quantity in place. */
  lemma MinusDecrements(s: CartState, k: nat)
    requires Valid(s)
    requires k < |s.items| && s.items[k].quantity > 1
    ensures var item := s.items[k];
      HandleUpdateQuantity(s, item.id, item.quantity - 1).items == s.items[k := item.(quantity := item.quantity - 1)]
  {
    UpdateAt(s, k, s.items[k].quantity - 1);
  }

  /** The plus button: `quantity + 1`, the same as adding that item again. */
  lemma PlusButton(s: CartState, k: nat)
    requires Valid(s)
    requires k < |s.items|
    ensures var item := s.items[k];
      var r := HandleUpdateQuantity(s, item.id, item.quantity + 1);
      && r.items == s.items[k := item.(quantity := item.quantity + 1)]
      && r == Reducer(s, AddItem(ItemPayload(item.id, item.name, item.price, item.imageUrl)))
  {
    PlusUpdates(s, k);
    AddPresentAt(s, k);
  }

  lemma PlusUpdates(s: CartState, k: nat)
    requires Valid(s)
    requires k < |s.items|
    ensures var item := s.items[k];
      HandleUpdateQuantity(s, item.id, item.quantity + 1) ==
        CartState(s.items[k := item.(quantity := item.quantity + 1)], s.isCartOpen)
  {
    UpdateAt(s, k, s.items[k].quantity + 1);
  }

  // ---------------------------------------------------------------- handleCheckout

  const OrdersPath := "/dashboard/orders"

  /**
   * One run of `handleCheckout`: the cart afterwards, the store afterwards, the
   * `placeOrderAction` call made (if any), the actions dispatched in order,
   * the id of the order placed (if it succeeded) and the page navigated to.
   */
  datatype CheckoutRun = CheckoutRun(
    cart: CartState,
    db: Store,
    call: Option<OrderInput>,
    dispatched: seq<CartAction>,
    placed: Option<nat>,
    redirect: Option<string>)

  /**
   * `handleCheckout` for a signed-in `user` (its uid) or none. The dispatches
   * of one run act on the state the run started from: no other action is
   * interleaved while the order is being placed.
   */
  function HandleCheckout(user: Option<string>, cart: CartState, db: Store, now: int, fault: Fault): (c: CheckoutRun)
    ensures user.None? ==>
      && c.call.None? && c.db == db && c.dispatched == [ToggleCart] && c.redirect == Some(LoginPath)
      && c.cart == CartState(cart.items, !cart.isCartOpen)
    ensures user.Some? && cart.items == [] ==> c == CheckoutRun(cart, db, None, [], None, None)
    ensures user.Some? && cart.items != [] ==>
      && c.call == Some(OrderInput(user.value, cart.items, TotalPrice(cart.items)))
      && (ToggleCart in c.dispatched <==> cart.isCartOpen)
      && (c.placed.Some? <==> fault == NoFault && CanUpdate(db, user.value))
      && (c.placed.Some? ==> |c.dispatched| > 0 && c.dispatched[0] == ClearCart && c.cart == CartState([], cart.isCartOpen) && c.redirect == Some(OrdersPath))
      && (c.placed.None? ==> ClearCart !in c.dispatched && c.cart == CartState(cart.items, false) && c.redirect.None?)
    ensures c.call.Some? ==> c.db == PlaceOrder(db, c.call.value, now, fault).db
    ensures c.call.None? ==> c.db == db
  {
    if user.None? then
      CheckoutRun(Reducer(cart, ToggleCart), db, None, [ToggleCart], None, Some(LoginPath))
    else if cart.items == [] then
      CheckoutRun(cart, db, None, [], None, None)
    else
      var input := OrderInput(user.value, cart.items, TotalPrice(cart.items));
      var w := PlaceOrder(db, input, now, fault);
      // the `finally` block toggles iff the cart was open when checkout began
      var closing := if cart.isCartOpen then [ToggleCart] else [];
      if w.result.Ok? then
        var cleared := Reducer(cart, ClearCart);
        var final := if cart.isCartOpen then Reducer(cleared, ToggleCart) else cleared;
        CheckoutRun(final, w.db, Some(input), [ClearCart] + closing, Some(w.result.value), Some(OrdersPath))
      else
        var final := if cart.isCartOpen then Reducer(cart, ToggleCart) else cart;
        CheckoutRun(final, w.db, Some(input), closing, None, None)
  }

  /**
   * As written, a successful checkout from an open cart dispatches CLEAR_CART
   * then TOGGLE_CART, so the cart ends empty but open again.
   */
  lemma SuccessfulCheckoutReopens(uid: string, cart: CartState, db: Store, now: int)
    requires cart.items != [] && cart.isCartOpen
    requires CanUpdate(db, uid)
    ensures var c := HandleCheckout(Some(uid), cart, db, now, NoFault);
      && c.dispatched == [ClearCart, ToggleCart]
      && c.cart == CartState([], true)
      && c.db.orders == db.orders + [Order(db.nextId, uid, cart.items, TotalPrice(cart.items), Pending, now)]
  {
  }

  /** A checkout that leaves the cart non-empty placed no order it knows of, and closed the cart. */
  lemma FailedCheckoutKeepsItems(uid: string, cart: CartState, db: Store, now: int, fault: Fault)
    requires cart.items != []
    requires fault != NoFault || !CanUpdate(db, uid)
    ensures var c := HandleCheckout(Some(uid), cart, db, now, fault);
      c.cart.items == cart.items && !c.cart.isCartOpen && c.placed.None?
  {
  }

  /**
   * When the points increment is rejected the checkout reports failure and
   * keeps the items, yet the pending order was already stored; checking out
   * again stores a second order for the same items.
   */
  lemma RetryAfterUpdateFailureDuplicates(uid: string, cart: CartState, db: Store, now: int, later: int)
    requires cart.items != []
    requires CanUpdate(db, uid)
    ensures var c := HandleCheckout(Some(uid), cart, db, now, UpdateFails);
      && c.placed.None? && c.cart.items == cart.items
      && c.db.orders == db.orders + [Order(db.nextId, uid, cart.items, TotalPrice(cart.items), Pending, now)]
      && var c2 := HandleCheckout(Some(uid), c.cart, c.db, later, NoFault);
         && c2.placed.Some?
         && c2.db.orders == c.db.orders + [Order(c.db.nextId, uid, cart.items, TotalPrice(cart.items), Pending, later)]
  {
  }
}

=== FILE: sorting.dfy ===
/**
 * Ordering of query results. A Firestore `orderBy` is modelled as a sort by a
 * comparator `le` ("may come before"), a total preorder.
 */
module Sorting {

  ghost predicate Total<T(!new)>(le: (T, T) -> bool) {
    forall a, b :: le(a, b) || le(b, a)
  }

  ghost predicate Transitive<T(!new)>(le: (T, T) -> bool) {
    forall a, b, c :: le(a, b) && le(b, c) ==> le(a, c)
  }

  /** A total preorder: what an `orderBy` on one field induces on documents. */
  ghost predicate Preorder<T(!new)>(le: (T, T) -> bool) {
    Total(le) && Transitive(le)
  }

  ghost predicate Sorted<T>(s: seq<T>, le: (T, T) -> bool) {
    forall i, j :: 0 <= i < j < |s| ==> le(s[i], s[j])
  }

  /** Inserts `x` into a sorted sequence, before the first element it may precede. */
  function Insert<T(!new)>(x: T, s: seq<T>, le: (T, T) -> bool): (r: seq<T>)
    requires Preorder(le)
    requires Sorted(s, le)
    ensures Sorted(r, le)
    ensures multiset(r) == multiset(s) + multiset{x}
    ensures |r| == |s| + 1
    decreases |s|
  {
    if s == [] then [x]
    else if le(x, s[0]) then
      ConsPrecedes(x, s, le);
      [x] + s
    else
      var rest := Insert(x, s[1..], le);
      InsertHeadPrecedes(x, s, le, rest);
      [s[0]] + rest
  }

  lemma ConsPrecedes<T(!new)>(x: T, s: seq<T>, le: (T, T) -> bool)
    requires Transitive(le)
    requires Sorted(s, le)
    requires s != [] && le(x, s[0])
    ensures Sorted([x] + s, le)
  {
    var r := [x] + s;
    forall i, j | 0 <= i < j < |r|
      ensures le(r[i], r[j])
    {
      if i == 0 {
        assert r[j] == s[j - 1];
        if j > 1 {
          assert le(s[0], s[j - 1]);
        }
      } else {
        assert r[i] == s[i - 1] && r[j] == s[j - 1];
      }
    }
  }

  lemma InsertHeadPrecedes<T(!new)>(x: T, s: seq<T>, le: (T, T) -> bool, rest: seq<T>)
    requires Total(le)
    requires Sorted(s, le)
    requires s != [] && !le(x, s[0])
    requires Sorted(rest, le)
    requires multiset(rest) == multiset(s[1..]) + multiset{x}
    ensures Sorted([s[0]] + rest, le)
    ensures multiset([s[0]] + rest) == multiset(s) + multiset{x}
  {
    assert le(s[0], x);
    forall k | 0 <= k < |rest|
      ensures le(s[0], rest[k])
    {
      assert rest[k] in multiset(rest);
      if rest[k] != x {
        assert rest[k] in s[1..];
        var m :| 0 <= m < |s[1..]| && s[1..][m] == rest[k];
        assert s[m + 1] == rest[k];
      }
    }
    var r := [s[0]] + rest;
    forall i, j | 0 <= i < j < |r|
      ensures le(r[i], r[j])
    {
      if i == 0 {
        assert r[j] == rest[j - 1];
      } else {
        assert r[i] == rest[i - 1] && r[j] == rest[j - 1];
      }
    }
    assert s == [s[0]] + s[1..];
  }

  /** Insertion sort: a sorted permutation of `s`. */
  function Sort<T(!new)>(s: seq<T>, le: (T, T) -> bool): (r: seq<T>)
    requires Preorder(le)
    ensures Sorted(r, le)
    ensures multiset(r) == multiset(s)
    ensures |r| == |s|
    decreases |s|
  {
    if s == [] then []
    else
      assert s == [s[0]] + s[1..];
      Insert(s[0], Sort(s[1..], le), le)
  }

  /** The first `n` elements of a sorted sequence come no later than any element after them. */
  lemma PrefixPrecedesRest<T>(s: seq<T>, le: (T, T) -> bool, n: nat)
    requires Sorted(s, le)
    requires n <= |s|
    ensures forall x, y :: x in s[..n] && y in s[n..] ==> le(x, y)
  {
    forall x, y | x in s[..n] && y in s[n..]
      ensures le(x, y)
    {
      var i :| 0 <= i < n && s[..n][i] == x;
      var j :| 0 <= j < |s| - n && s[n..][j] == y;
      assert s[i] == x && s[n + j] == y;
    }
  }
}

=== FILE: store.dfy ===
/**
 * The Firestore database, as an immutable value: the `orders` collection, the
 * `users` collection keyed by user id, and the counter the store draws fresh
 * order ids from. Writes that may fail for reasons outside the model (network,
 * permissions) are driven by a `Fault` oracle.
 */
module DocumentStore {
  import opened Wrappers
  import opened Seqs
  import opened Cart

  datatype OrderStatus = Pending | Paid

  datatype Order = Order(id: nat, userId: string, items: seq<CartItem>, total: real, status: OrderStatus, createdAt: int)

  datatype Address = Address(id: string, name: string, details: string)

  /** A user document. A favourites array the document lacks is modelled as the empty array. */
  datatype UserDoc = UserDoc(
    displayName: string,
    photoURL: Option<string>,
    loyaltyPoints: int,
    favoriteRestaurants: seq<string>,
    favoriteMeals: seq<string>,
    addresses: seq<Address>)

  datatype Store = Store(orders: seq<Order>, users: map<string, UserDoc>, nextId: nat)

  /** Which write of an operation the backend rejects, if any. */
  datatype Fault = NoFault | AddFails | UpdateFails

  datatype StoreError = WriteFailed | NotFound

  /** Order ids are fresh: each is below the counter and no two orders share one. */
  predicate FreshIds(db: Store) {
    && (forall i :: 0 <= i < |db.orders| ==> db.orders[i].id < db.nextId)
    && (forall i, j :: 0 <= i < j < |db.orders| ==> db.orders[i].id != db.orders[j].id)
  }

  /** `doc(userId).update(...)` succeeds only on an existing document; `doc("")` is rejected. */
  predicate CanUpdate(db: Store, userId: string) {
    userId != "" && userId in db.users
  }

  /** `collection('orders').add(data)`: the new order gets the next fresh id. */
  function AddOrder(db: Store, userId: string, items: seq<CartItem>, total: real, status: OrderStatus, now: int): (r: Store)
    ensures |r.orders| == |db.orders| + 1 && r.orders[..|db.orders|] == db.orders
    ensures r.orders[|db.orders|] == Order(db.nextId, userId, items, total, status, now)
    ensures r.users == db.users
    ensures FreshIds(db) ==> FreshIds(r) && forall i :: 0 <= i < |db.orders| ==> db.orders[i].id != db.nextId
  {
    Store(db.orders + [Order(db.nextId, userId, items, total, status, now)], db.users, db.nextId + 1)
  }

  /** Replaces one user document, leaving every other document as it was. */
  function PutUser(db: Store, userId: string, u: UserDoc): (r: Store)
    ensures r.orders == db.orders && r.nextId == db.nextId
    ensures userId in r.users && r.users[userId] == u
    ensures forall k :: k != userId ==> (k in r.users <==> k in db.users)
    ensures forall k :: k in db.users && k != userId ==> r.users[k] == db.users[k]
  {
    db.(users := db.users[userId := u])
  }

  /** `FieldValue.arrayUnion(x)`: adds `x` only if it is absent. */
  function ArrayUnion(s: seq<string>, x: string): (r: seq<string>)
    ensures Elements(r) == Elements(s) + {x}
    ensures x in s ==> r == s
    ensures x !in s ==> r == s + [x]
  {
    if x in s then s else s + [x]
  }

  /** `FieldValue.arrayRemove(x)`: removes every occurrence of `x`. */
  function ArrayRemove(s: seq<string>, x: string): (r: seq<string>)
    ensures Elements(r) == Elements(s) - {x}
    ensures x !in r
  {
    RemoveAll(s, x)
  }

  lemma ArrayUnionIdempotent(s: seq<string>, x: string)
    ensures ArrayUnion(ArrayUnion(s, x), x) == ArrayUnion(s, x)
  {
  }

  lemma ArrayRemoveIdempotent(s: seq<string>, x: string)
    ensures ArrayRemove(ArrayRemove(s, x), x) == ArrayRemove(s, x)
  {
  }

  /** `Math.floor(total)`: whole currency units, one loyalty point each. */
  function PointsFor(total: real): (r: int)
    ensures r as real <= total < r as real + 1.0
  {
    total.Floor
  }
}

=== FILE: text.dfy ===
/**
 * String operations the dashboard relies on: JavaScript's `toLowerCase`,
 * `toUpperCase` (restricted to ASCII letters) and Firestore's ascending order
 * on string fields (lexicographic order on characters).
 */
module Text {

  function LowerChar(c: char): (r: char)
    ensures 'A' <= c <= 'Z' ==> 'a' <= r <= 'z' && r as int - c as int == 32
    ensures !('A' <= c <= 'Z') ==> r == c
  {
    if 'A' <= c <= 'Z' then (c as int + 32) as char else c
  }

  function UpperChar(c: char): (r: char)
    ensures 'a' <= c <= 'z' ==> 'A' <= r <= 'Z' && c as int - r as int == 32
    ensures !('a' <= c <= 'z') ==> r == c
  {
    if 'a' <= c <= 'z' then (c as int - 32) as char else c
  }

  /** `s.toLowerCase()`. */
  function Lower(s: string): (r: string)
    ensures |r| == |s|
    ensures forall i :: 0 <= i < |s| ==> r[i] == LowerChar(s[i])
  {
    seq(|s|, i requires 0 <= i < |s| => LowerChar(s[i]))
  }

  /** `s.charAt(0).toUpperCase() + s.slice(1)`: the first character upper-cased, the rest unchanged. */
  function Capitalize(s: string): (r: string)
    ensures |r| == |s|
    ensures |s| > 0 ==> r[0] == UpperChar(s[0]) && r[1..] == s[1..]
  {
    if s == [] then [] else [UpperChar(s[0])] + s[1..]
  }

  /** Lexicographic "a sorts no later than b". */
  predicate LexLe(a: string, b: string)
    decreases |a|
  {
    a == [] || (b != [] && (a[0] < b[0] || (a[0] == b[0] && LexLe(a[1..], b[1..]))))
  }

  lemma {:induction false} LexLeTotal(a: string, b: string)
    ensures LexLe(a, b) || LexLe(b, a)
    decreases |a|
  {
    if a != [] && b != [] && a[0] == b[0] {
      LexLeTotal(a[1..], b[1..]);
    }
  }

  lemma {:induction false} LexLeTransitive(a: string, b: string, c: string)
    requires LexLe(a, b) && LexLe(b, c)
    ensures LexLe(a, c)
    decreases |a|
  {
    if a != [] && a[0] == b[0] && b[0] == c[0] {
      LexLeTransitive(a[1..], b[1..], c[1..]);
    }
  }
}

=== FILE: webhook.dfy ===
/**
 * `POST /api/stripe/webhook` as a pure decision: from the request, the
 * configured secret and the store to an HTTP response and the store after it.
 * Stripe's `constructEvent` is the parameter `verify` (an uninterpreted
 * signature check that yields the event or an error message), and
 * `JSON.parse` of the metadata items is the parameter `decode`.
 */
module Webhook {
  import opened Wrappers
  import opened Cart
  import opened DocumentStore
  import opened OrderService

  datatype Session = Session(metadata: Option<map<string, string>>, amountTotal: Option<int>)

  datatype Event = Event(eventType: string, session: Session)

  datatype Response = Response(status: int, body: Option<string>)

  /** The response, the store afterwards, and the `createOrder` call made, if any. */
  datatype Delivery = Delivery(response: Response, db: Store, created: Option<OrderInput>)

  type Verifier = (string, string, string) -> Result<Event, string>

  type ItemsDecoder = string -> Option<seq<CartItem>>

  const CompletedEvent := "checkout.session.completed"

  /** A JavaScript-truthy metadata value: present and non-empty. */
  predicate HasField(m: Option<map<string, string>>, key: string) {
    m.Some? && key in m.value && m.value[key] != ""
  }

  /** `(session.amount_total || 0) / 100`: minor units to currency units. */
  function TotalOf(amountTotal: Option<int>): (t: real)
    ensures amountTotal.Some? ==> t * 100.0 == amountTotal.value as real
    ensures amountTotal.None? ==> t == 0.0
  {
    match amountTotal
    case None => 0.0
    case Some(n) => n as real / 100.0
  }

  /** A verified, completed checkout whose metadata carries truthy `userId` and `items`: the path that reaches `createOrder`. */
  predicate OrderBearing(body: string, signature: string, secret: Option<string>, verify: Verifier) {
    && secret.Some? && secret.value != ""
    && var e := verify(body, signature, secret.value);
       && e.Ok? && e.value.eventType == CompletedEvent
       && HasField(e.value.session.metadata, "userId") && HasField(e.value.session.metadata, "items")
  }

  /** The metadata of an order-bearing event. */
  function MetadataOf(body: string, signature: string, secret: Option<string>, verify: Verifier): (m: map<string, string>)
    requires OrderBearing(body, signature, secret, verify)
    ensures "userId" in m && "items" in m
  {
    verify(body, signature, secret.value).value.session.metadata.value
  }

  const CreateFailed := "Error creating order"

  function Post(body: string, signature: string, secret: Option<string>, verify: Verifier,
                decode: ItemsDecoder, db: Store, now: int, fault: Fault): (d: Delivery)
    // no order is written unless createOrder is called, and it is called at most once
    ensures d.created.None? ==> d.db == db
    ensures d.response.status in {200, 400, 500}
    ensures secret.None? || secret == Some("") ==> d == Delivery(Response(500, Some("Webhook secret not configured")), db, None)
    ensures secret.Some? && secret.value != "" && verify(body, signature, secret.value).Err? ==>
      d == Delivery(Response(400, Some("Webhook Error: " + verify(body, signature, secret.value).error)), db, None)
    ensures d.created.Some? ==>
      && secret.Some? && secret.value != ""
      && var e := verify(body, signature, secret.value);
         && e.Ok? && e.value.eventType == CompletedEvent
         && HasField(e.value.session.metadata, "userId") && HasField(e.value.session.metadata, "items")
         && var m := e.value.session.metadata.value;
            && decode(m["items"]).Some?
            && d.created == Some(OrderInput(m["userId"], decode(m["items"]).value, TotalOf(e.value.session.amountTotal)))
            && d.db == CreateOrder(db, d.created.value, now, fault).db
            && (d.response.status == 200 <==> CreateOrder(db, d.created.value, now, fault).result.Ok?)
    ensures d.response.status == 200 ==> d.response.body.None?
    // an order-bearing event calls createOrder exactly when its items parse
    ensures OrderBearing(body, signature, secret, verify) ==>
      (d.created.Some? <==> decode(MetadataOf(body, signature, secret, verify)["items"]).Some?)
    ensures OrderBearing(body, signature, secret, verify) && decode(MetadataOf(body, signature, secret, verify)["items"]).None? ==>
      d == Delivery(Response(500, Some(CreateFailed)), db, None)
    ensures d.created.Some? && !CreateOrder(db, d.created.value, now, fault).result.Ok? ==>
      d.response == Response(500, Some(CreateFailed))
    ensures !OrderBearing(body, signature, secret, verify) ==> d.created.None?
  {
    if secret.None? || secret.value == "" then
      Delivery(Response(500, Some("Webhook secret not configured")), db, None)
    else match verify(body, signature, secret.value)
      case Err(message) => Delivery(Response(400, Some("Webhook Error: " + message)), db, None)
      case Ok(event) =>
        if event.eventType != CompletedEvent then Delivery(Response(200, None), db, None)
        else
          var metadata := event.session.metadata;
          if !HasField(metadata, "userId") || !HasField(metadata, "items") then
            Delivery(Response(400, Some("Webhook error: Missing metadata")), db, None)
          else match decode(metadata.value["items"])
            // JSON.parse throws inside the try block: answered like a failed write
            case None => Delivery(Response(500, Some(CreateFailed)), db, None)
            case Some(items) =>
              var input := OrderInput(metadata.value["userId"], items, TotalOf(event.session.amountTotal));
              var w := CreateOrder(db, input, now, fault);
              if w.result.Ok? then Delivery(Response(200, None), w.db, Some(input))
              else Delivery(Response(500, Some(CreateFailed)), w.db, Some(input))
  }

  /** Events other than a completed checkout are acknowledged and ignored. */
  lemma OtherEventsIgnored(body: string, signature: string, secret: string, verify: Verifier,
                           decode: ItemsDecoder, db: Store, now: int, fault: Fault)
    requires secret != ""
    requires verify(body, signature, secret).Ok? && verify(body, signature, secret).value.eventType != CompletedEvent
    ensures Post(body, signature, Some(secret), verify, decode, db, now, fault) == Delivery(Response(200, None), db, None)
  {
  }

  /** A completed event without a truthy `userId` or `items` in its metadata is rejected, no order written. */
  lemma MissingMetadataRejected(body: string, signature: string, secret: string, verify: Verifier,
                                decode: ItemsDecoder, db: Store, now: int, fault: Fault)
    requires secret != ""
    requires verify(body, signature, secret).Ok?
    requires var e := verify(body, signature, secret).value;
      e.eventType == CompletedEvent &&
      (!HasField(e.session.metadata, "userId") || !HasField(e.session.metadata, "items"))
    ensures Post(body, signature, Some(secret), verify, decode, db, now, fault) ==
      Delivery(Response(400, Some("Webhook error: Missing metadata")), db, None)
  {
  }

  /**
   * A completed checkout with its metadata and parseable items creates exactly
   * one order for that user, items and total, and answers 200 iff the create
   * succeeds, 500 otherwise.
   */
  lemma CompletedEventCreatesOrder(body: string, signature: string, secret: string, verify: Verifier,
                                   decode: ItemsDecoder, db: Store, now: int, fault: Fault)
    requires OrderBearing(body, signature, Some(secret), verify)
    requires decode(MetadataOf(body, signature, Some(secret), verify)["items"]).Some?
    ensures var m := MetadataOf(body, signature, Some(secret), verify);
      var e := verify(body, signature, secret).value;
      var input := OrderInput(m["userId"], decode(m["items"]).value, TotalOf(e.session.amountTotal));
      var w := CreateOrder(db, input, now, fault);
      Post(body, signature, Some(secret), verify, decode, db, now, fault) ==
        Delivery(if w.result.Ok? then Response(200, None) else Response(500, Some(CreateFailed)), w.db, Some(input))
  {
  }

  /** Delivering the same completed event twice creates two orders and credits the points twice: there is no deduplication. */
  lemma DuplicateDeliveryCreditsTwice(body: string, signature: string, secret: string, verify: Verifier,
                                      decode: ItemsDecoder, db: Store, now1: int, now2: int)
    requires var d := Post(body, signature, Some(secret), verify, decode, db, now1, NoFault);
      d.response.status == 200 && d.created.Some?
    ensures var d1 := Post(body, signature, Some(secret), verify, decode, db, now1, NoFault);
      var d2 := Post(body, signature, Some(secret), verify, decode, d1.db, now2, NoFault);
      var input := d1.created.value;
      && d2.response.status == 200
      && d2.created == d1.created
      && |d2.db.orders| == |db.orders| + 2
      && d2.db.users[input.userId].loyaltyPoints == db.users[input.userId].loyaltyPoints + 2 * PointsFor(input.total)
  {
    var d1 := Post(body, signature, Some(secret), verify, decode, db, now1, NoFault);
    var input := d1.created.value;
    assert CanUpdate(d1.db, input.userId);
  }
}

=== FILE: wrappers.dfy ===
/** Failure-carrying result types shared by every module of the model. */
module Wrappers {

  /** A value that may be absent: JavaScript's `undefined`/`null`, or a missing field. */
  datatype Option<+T> = None | Some(value: T)

  /** The outcome of an operation that may fail (throw or return an error). */
  datatype Result<+T, +E> = Ok(value: T) | Err(error: E)
}
